=== FILE: README.md ===
# ESP32 camera car, modelled in Dafny

This project models the control core of a small ESP32 camera car. It covers
five pieces:

- **Motors** (`src/Motor.h`): an H-bridge motor that ramps its PWM duty toward a
  target in fixed steps, no faster than its update interval. Leaving rest, it
  jumps to a minimum duty.
- **The car** (`src/Car.h`): two motors driven as a differential pair, the
  flash lamp, a camera servo that eases toward its target angle, and a watchdog.
  The watchdog stops a car that has heard no command for 500 ms.
- **Helpers** (`src/utils.h`): the millisecond clock difference, the frame-size
  name table and the station RSSI lookup.
- **The gateway** (`src/carServer.h`): it parses and dispatches the text
  commands that arrive over the WebSocket and formats the replies. It also runs
  the one-client-at-a-time MJPEG stream, with its lock, and writes each stream
  part's header.
- **The web client** (`lib/script.js`): its pure logic. This is the key pad that
  turns held keys into a movement command, the reply decoder, the Wi-Fi signal
  indicator and the camera-drag control.

Every operation is a pure function over immutable datatypes:

- The clock reading `now` is passed in as a parameter.
- The motors' PWM writes (two channels each) and the servo steps are returned
  as data. The lamp pin write and the boot-time servo write to 90 degrees are
  not modelled as writes; the lamp is a field of the car.
- Camera-sensor calls and socket sends become an environment value or a
  sequence of outcome events.

C's fixed-width arithmetic is written out in `bounded.dfy`:

- `uint8_t` wrap-around (`ToU8`);
- `uint64_t` subtraction (`SubU64`);
- truncating division (`DivTrunc`);
- Arduino's `constrain` and `map`.

Files:

- `bounded.dfy`: machine integers, `Option`, the C arithmetic.
- `utils.dfy`: `Utils`, the elapsed-time clamp, the frame-size table and the RSSI lookups.
- `text.dfy`: `Text`, decimal rendering, `sscanf("%d_%d")` scanning, JavaScript
  `parseInt`, `split("-")[1]` and C string termination.
- `motor.dfy`: `Motors`.
- `vehicle.dfy`: `Vehicle`, the car.
- `car_server.dfy`: `CarServer`, command parsing and dispatch, replies, WebSocket frames,
  the stream lock and the part header.
- `client.dfy`: `Client`, the pure parts of the web page script.

## Model

| member | source | states |
|---|---|---|
| Bounded.Constrain | src/Motor.h:43-44 | the result lies in [lo, hi], equals x inside the range and the nearer bound outside it |
| Bounded.SubU64 | src/utils.h:10 | unsigned 64-bit subtraction: exact when b <= a, otherwise wraps by 2^64 |
| Bounded.ToU8 | src/Motor.h:85-87 | an 8-bit store keeps x in range and wraps one modulus above or below |
| Bounded.DivTrunc | src/Car.h:144 | C division rounds toward zero: the Euclidean quotient for a non-negative dividend, the negated quotient of the magnitude for a negative one |
| Utils.ElapsedSince | src/utils.h:8-17 | the elapsed time is below 2^63; it is now - time when the clock has not gone back and the gap is below 2^63, and 0 when it has gone back by at most 2^63 |
| Utils.SizeIndex | src/utils.h:19-68 | every named frame size sits at a position of the size table |
| Utils.FrameSizeToString | src/utils.h:19-68 | the name of each frame size; FrameSizeRoundTrip, FrameSizeNamesDistinct and FrameSizeNameLength state that the named sizes print distinct names of at most 17 characters, none of them "UNKNOWN", which the lookup reads back |
| Utils.StringToFrameSize | src/utils.h:70-120 | the name lookup; StringToFrameSizeRoundTrip, UnlistedNamesAreInvalid and ShortNamesAreInvalid state that it accepts exactly the printed names and gives INVALID for a null, unlisted or "UNKNOWN" name |
| Utils.FrameSizeRoundTrip | src/utils.h:19-120 | looking up the printed name of any named size gives that size back |
| Utils.StringToFrameSizeRoundTrip | src/utils.h:70-120 | any name the lookup accepts is exactly the printed name of the size it returns |
| Utils.FrameSizeNamesDistinct | src/utils.h:19-68 | distinct sizes print distinct names, and none prints the fallback "UNKNOWN" |
| Utils.UnlistedNamesAreInvalid | src/utils.h:70-120 | a name outside the table, a null name and "UNKNOWN" all give INVALID |
| Utils.ShortNamesAreInvalid | src/utils.h:70-120 | any name shorter than the shortest table name (12 characters) is looked up to INVALID |
| Utils.GetClientRSSI | src/utils.h:122-131 | with no station the RSSI is 0; otherwise it is the first station's own reading, the one the per-client lookup gives for its MAC |
| Utils.GetRSSIForClient | src/utils.h:133-146 | a failed station list gives 0; otherwise the RSSI of the first station with the MAC, or 0 when none matches |
| Utils.FirstMatchIsRSSIFor | src/utils.h:139-143 | the lookup returns the RSSI of the earliest station carrying the MAC |
| Utils.NoMatchIsZero | src/utils.h:145 | the lookup of an absent MAC is 0 |
| Text.NatToString | src/carServer.h:125 | the rendering of %u/%d is a non-empty digit string without a leading zero whose value is n |
| Text.NatToStringLength | src/carServer.h:294 | a number prints in at most k digits exactly when it is below 10^k |
| Text.IntToString | lib/script.js:414 | the decimal text of an integer, which starts with a minus sign exactly when the integer is negative and is followed by the magnitude's digits; ScanIntRoundTrip and ScanTwoIntsRoundTrip state that `%d` reads it back |
| Text.DigitRunOfDigits | src/carServer.h:90 | a digit scan over digits followed by a non-digit stops exactly at the end of the digits |
| Text.DropCSpace | src/carServer.h:90 | skipping white space leaves a suffix whose first character is not a C space |
| Text.ScanUnsignedRoundTrip | src/carServer.h:90 | scanning a printed natural followed by a non-digit reads the number and leaves the rest |
| Text.ScanIntRoundTrip | src/carServer.h:90 | scanning a printed integer, signed or not, followed by a non-digit reads it back and leaves the rest |
| Text.ScanNegativeRoundTrip | src/carServer.h:90 | scanning a minus sign and digits reads the negative number back |
| Text.ScanIntOfSigned | src/carServer.h:90 | a leading minus sign negates the unsigned scan of what follows |
| Text.ScanIntOfUnsigned | src/carServer.h:90 | a leading digit makes %d read the same value and rest as the unsigned scan |
| Text.ScanTwoIntsRoundTrip | src/carServer.h:90 | `%d_%d` applied to "x_y" reads both numbers back, for every pair of integers |
| Text.ScanTwoIntsOf | src/carServer.h:90 | two conversions succeed when the first is followed by `_` and the second scans |
| Text.ScanInt | src/carServer.h:90 | one `%d` conversion: skips white space, takes an optional sign and at least one digit, and returns the value with the unread rest, which is a proper suffix of the input (ScanIntRoundTrip, ScanIntOfSigned and ScanIntOfUnsigned give its values) |
| Text.ScanTwoInts | src/carServer.h:90 | the whole `%d_%d` scan, succeeding only when both conversions do; ScanTwoIntsRoundTrip and ScanTwoIntsOf state that it reads back every rendered pair |
| Text.DropJsSpace | lib/script.js:143 | parseInt's white-space skip leaves a non-space head and leaves unspaced text alone |
| Text.ParseInt | lib/script.js:143 | parseInt gives NaN for undefined, for the empty string and for text that starts with anything but white space, a sign or a digit; text that starts with a decimal digit (and is not 0x) gives the value of its leading digit run |
| Text.ParseIntRoundTrip | lib/script.js:143 | parseInt reads any printed natural number back |
| Text.IndexOf | lib/script.js:143 | the index found holds the character and no earlier position does; no index means the character is absent |
| Text.SecondDashField | lib/script.js:143 | `split("-")[1]` has no dash in it, and is missing exactly when the text has no dash |
| Text.SecondDashFieldOf | lib/script.js:143 | the second field of "a-b" or "a-b-tail" is b when a and b have no dash |
| Text.IndexOfAfter | lib/script.js:143 | the first occurrence of c in a + c + rest is right after a when a lacks c |
| Text.CString | src/carServer.h:226-234 | the C string of a buffer is its longest prefix without a NUL, ended by the first NUL |
| Text.CStringOf | src/carServer.h:226-234 | a NUL-free buffer is read whole, and a NUL after it ends the string there whatever follows |
| Motors.NewMotor | src/Motor.h:14-23 | a new motor is stopped and valid, with no floor, step 5 and interval 30, never updated |
| Motors.SetMinPwm | src/Motor.h:38-40 | only the floor changes, to the given value |
| Motors.SetRamp | src/Motor.h:42-45 | the step is clamped into [1,50] and the interval into [5,100]; in-range values are kept, out-of-range ones go to the nearer bound (a step of 0 becomes 1), nothing else changes |
| Motors.TargetFor | src/Motor.h:47-55 | the target is the requested speed raised to the floor: never below the floor, the speed when it reaches the floor |
| Motors.MoveForward | src/Motor.h:47-50 | direction becomes forward and the target the floored speed; the current speed and settings are untouched |
| Motors.MoveBackward | src/Motor.h:52-55 | direction becomes backward and the target the floored speed; the current speed and settings are untouched |
| Motors.Stop | src/Motor.h:57-61 | the motor is stopped at speed 0 with target 0; settings are untouched |
| Motors.StopIsIdempotent | src/Motor.h:57-78 | stopping twice is stopping once, and every tick of a stopped motor leaves it at 0 |
| Motors.RampToward | src/Motor.h:84-88 | one ramp step lands between the speed and the target, never passes it and moves at most one step: either onto the target or exactly one step from the start |
| Motors.RampAsWrittenAgrees | src/Motor.h:84-88 | when no 8-bit overflow or underflow occurs, the ramp as written equals the saturating ramp |
| Motors.RampTowardAsWritten | src/Motor.h:84-88 | the ramp step with the unsaturated 8-bit add and subtract; RampAsWrittenAgrees and RampWrapCounterexample state where it agrees with the corrected ramp and where it wraps |
| Motors.RampWrapCounterexample | src/Motor.h:85-87 | 251 stepping by 5 toward 255 wraps to 0, and 3 stepping toward 0 wraps to 254, where the saturating ramp gives 255 and 0 |
| Motors.Output | src/Motor.h:90-103 | the channel writes of a driven speed, channel 1 forward and channel 2 backward; OutputDrivesOneChannel states that one channel carries the whole speed and the other 0, and Motors.Tick and FirstTickFromRest state the writes a tick makes with it |
| Motors.OutputDrivesOneChannel | src/Motor.h:90-103 | a driven motor never powers both H-bridge channels: one of them is 0 and the two add up to the speed |
| Motors.Tick | src/Motor.h:63-104 | a tick before the interval does nothing. An eligible tick stamps the time and writes the PWM: a stopped motor is held at 0; a running one moves from its start speed toward the target by at most one step, never past it, and its channels carry the new speed. Only the speed and the stamp change; validity is preserved |
| Motors.FirstTickFromRest | src/Motor.h:80-103 | from rest toward a target at or above the floor, the first eligible tick drives min(floor + step, target) on the channel of the direction |
| Motors.TickAsWrittenAgrees | src/Motor.h:63-117 | below 2^32 ms and without ramp overflow, the tick as written equals the corrected tick |
| Motors.TickAsWritten | src/Motor.h:63-117 | the motor tick with the 32-bit timestamp and the wrapping ramp; TickAsWrittenAgrees, WrapStep and TimestampTruncationCounterexample state where it agrees with the corrected tick and where it does not |
| Motors.WrapCounterexample | src/Motor.h:80-103 | a motor with floor 201 climbing to 255 reaches 251 after ten ticks; the next tick as written writes 0 to both channels where full speed is meant |
| Motors.WrapStep | src/Motor.h:84-103 | from 251 toward 255 the as-written tick writes 0 on both channels and the corrected one writes 255 forward |
| Motors.ClimbAsWritten | src/Motor.h:84-88 | k ticks of the as-written motor below the wrap climb exactly 5k |
| Motors.TimestampTruncationCounterexample | src/Motor.h:70 | past 2^32 ms the truncated 32-bit timestamp lets a second tick through 1 ms after the first, which the corrected tick holds back |
| Motors.TickClosesGap | src/Motor.h:80-88 | an eligible tick keeps the target, direction and settings, stamps the time, and either closes the distance to the target or shrinks it by exactly one step |
| Motors.Converges | src/Motor.h:63-104 | k eligible ticks, with k steps covering the distance, bring the speed onto the target |
| Motors.ForwardSettlesAtClampedSpeed | src/Motor.h:47-104 | after moveForward(speed) and enough ticks the duty is the speed clamped into [floor, 255] |
| Vehicle.NewCar | src/Car.h:36-44 | the constructor gives a valid car: lamp off, camera at 90 degrees, motors stopped, clocks at 0 |
| Vehicle.Boot | src/Car.h:46-60 | after init the car is valid and configured (floor 200, step 5, interval 30), centred, stopped at speed 0, and its watchdog clock is the boot time |
| Vehicle.ToggleFlash | src/Car.h:74-77 | the lamp state flips and nothing else changes |
| Vehicle.TurnFlashOff | src/Car.h:79-82 | the lamp is off and nothing else changes |
| Vehicle.FlashToggleIsInvolution | src/Car.h:74-82 | toggling twice restores the car; turning off is idempotent and absorbs a toggle |
| Vehicle.OnCommand | src/Car.h:62-65 | a command stamps the watchdog clock and marks the car running, nothing else, so a valid running car stays valid and the motor settings are kept; Drive and CommandKeepsWatchdogQuiet state its effect on moves and on the watchdog |
| Vehicle.Drive | src/Car.h:88-134 | each move stamps the clock and gives the left and right motors the direction and floored target of the move's wheel table, keeping validity and configuration |
| Vehicle.Intent | src/Car.h:100-134 | the wheel table of the moves; Drive, TurnsAreDifferential, DiagonalsSlowInnerWheel and IntentIsMirrorSymmetric state how each move sets the two wheels |
| Vehicle.TurnsAreDifferential | src/Car.h:100-110 | a turn drives the wheels in opposite directions at full speed, left turning with the left wheel backward |
| Vehicle.DiagonalsSlowInnerWheel | src/Car.h:112-134 | a diagonal drives both wheels one way, the outer at full speed and the inner no faster, forward moves forward |
| Vehicle.InnerWheelRaisedToFloor | src/Car.h:112-134 | on a configured car the inner wheel's 170 is raised to the 200 floor |
| Vehicle.IntentIsMirrorSymmetric | src/Car.h:100-134 | the wheel table of a move's mirror image is the table with the wheels swapped |
| Vehicle.Stop | src/Car.h:136-140 | both motors stop at speed 0 and the car is marked stopped; the watchdog clock, validity and configuration are kept |
| Vehicle.CameraAngle | src/Car.h:142-145 | the servo angle for a drag x is (constrain(x,-100,100) + 100) * 9 / 10, in [0,180]: 0 at or below -100, 90 at 0, 180 at or above 100 |
| Vehicle.ArduinoMap | src/Car.h:144 | Arduino's `map` with C's truncating division; CameraAngle and CameraAngleMonotonic state what it gives for the camera's range |
| Vehicle.CameraAngleMonotonic | src/Car.h:142-145 | a larger drag x never gives a smaller angle |
| Vehicle.SetCameraX | src/Car.h:142-145 | only the servo target changes, to the mapped angle |
| Vehicle.UpdateServo | src/Car.h:162-191 | within 40 ms nothing happens; otherwise the time is stamped and the angle moves toward the target by at most 2 degrees, never past it, and the servo is written with the new angle exactly when the angle changed. Nothing else changes |
| Vehicle.TickAutoStop | src/Car.h:193-203 | the watchdog fires exactly when a running car has been silent for more than 500 ms, and then the car is stopped; otherwise the car is unchanged |
| Vehicle.Tick | src/Car.h:67-72 | a car tick stops the car exactly when the watchdog fires. The servo step is the servo update of the car. Each motor takes one motor tick, of the motor as it is or, when the watchdog fired, of the stopped motor; then both end at 0 and write only zeros. A stopped car stays stopped; lamp, target angle and watchdog clock are kept |
| Vehicle.StoppedCarStaysStopped | src/Car.h:67-72 | a stopped car stays stopped over any run of ticks and the watchdog never fires |
| Vehicle.WatchdogStopsOnce | src/Car.h:193-203 | a timed-out running car is stopped by the first tick, and over the whole run the watchdog fires exactly once |
| Vehicle.CommandKeepsWatchdogQuiet | src/Car.h:193-203 | within 500 ms of a move the watchdog does not fire |
| Vehicle.ForwardThenLeft | src/Car.h:88-110 | forward followed by left within 500 ms turns on the spot, left wheel backward and right forward, both at full speed |
| Vehicle.ForwardThenSilence | src/Car.h:193-203 | 600 ms of silence after forward stops both wheels |
| Vehicle.GridStepFits | src/Motor.h:84-88 | with floor 200 and step 5 a ramp step never leaves eight bits and lands on a multiple of 5 or 0 |
| Vehicle.GridTickAgrees | src/Motor.h:63-104 | on this car's settings, below 2^32 ms, the as-written motor tick equals the corrected one |
| Vehicle.GridTickStaysOnGrid | src/Motor.h:63-104 | a tick keeps a motor among this car's reachable states |
| Vehicle.GridIsPreserved | src/Car.h:46-203 | boot, every move, stop, camera, lamp and tick keep both motors among the reachable states |
| CarServer.Parse | src/carServer.h:75-184 | the command chain in source order: each exact token and each prefix is recognised exactly when the text is that token or has that prefix; the drag's coordinates are the `%d_%d` scan of the suffix; everything else is unknown |
| CarServer.ParseWord | src/carServer.h:113-182 | the strcmp tokens after the prefixes: each recognised exactly when the text equals it |
| CarServer.NotPrefixAt | src/carServer.h:87-97 | a differing character rules out a prefix |
| CarServer.PrefixChar | src/carServer.h:87-97 | a prefix fixes the characters of the text |
| CarServer.ExactTokensHaveNoPrefix | src/carServer.h:78-182 | no exact token starts with either prefix, so prefix tests never shadow a token |
| CarServer.MoveTokensDistinct | src/carServer.h:130-176 | distinct moves have distinct command words |
| CarServer.ParseMoveToken | src/carServer.h:130-176 | each move's command word parses back to that move |
| CarServer.ParseCommandText | src/carServer.h:75-182 | every command the gateway understands has a text that parses back to it |
| CarServer.ParseDragText | src/carServer.h:87-95 | a drag text parses back to its coordinates, or to the malformed drag |
| CarServer.ParseDragOf | src/carServer.h:87-95 | "cameraDrag_x_y" parses to the drag to (x, y) for all integers |
| CarServer.ParseFrameSizeText | src/carServer.h:97-111 | "frameSize_" + name parses to a request for that name |
| CarServer.CommandTextOfParse | src/carServer.h:78-182 | an exact token or a frame-size request is the text of the command it parses to |
| CarServer.FlashReply | src/carServer.h:81-83 | the lamp reply is Flash-ON exactly when the lamp is on and Flash-OFF otherwise; DecodeFlash states that the client reads it back as the lamp state |
| CarServer.FrameSizeNameLength | src/utils.h:19-68 | no frame-size name is longer than 17 characters |
| CarServer.RepliesFitTheirBuffers | src/carServer.h:123-204 | the pong, Wi-Fi and frame-size replies fit their 40, 16 and 64 byte buffers, so snprintf never truncates them |
| CarServer.PongReplyFields | src/carServer.h:120-128 | the pong reply is three dash-separated fields: "pong", the dash-free RSSI magnitude and ON or OFF |
| CarServer.PongReply | src/carServer.h:120-128 | the `pong-<abs(rssi)>-<ON/OFF>` text; PongReplyFields, RepliesFitTheirBuffers and DecodePong state its fields, its size and what the client reads from it |
| CarServer.WifiReply | src/carServer.h:195-196 | the `WIFI-<0/1>` text; RepliesFitTheirBuffers and DecodeWifi state its size and what the client reads from it |
| CarServer.FrameReply | src/carServer.h:202-205 | the `FRAMESIZE-<name>` text; RepliesFitTheirBuffers, DecodeFrameSize and FrameSelectionRoundTrip state its size and that the client reads the name back |
| CarServer.Dispatch | src/carServer.h:75-185 | the corrected dispatch. An unknown or malformed command does nothing. Only the lamp and ping reply: the toggle flips the lamp and nothing else and replies with the new state; ping keeps the car and replies with the RSSI and lamp state. Moves drive, stop stops, drag pans to x. The sensor gets a size exactly when the name is in the table, and it is that name's size. Reset leaves the car alone and is the only command that restarts |
| CarServer.HandleCarCommand | src/carServer.h:75-185 | the corrected handler, parsing and then running the corrected dispatch: an unrecognised message leaves everything unchanged, and the car stays valid |
| CarServer.PingRssi | src/carServer.h:121 | the RSSI the ping reports: the first station's reading in access-point mode, the link's own otherwise; Dispatch states that the pong carries it and Utils.GetClientRSSI what the station reading is |
| CarServer.MoveTokenDrives | src/carServer.h:130-176 | each move word drives the car by that move and sends nothing |
| CarServer.ForwardIsNotForwardLeft | src/carServer.h:130-159 | "forward" and "forward-left" are told apart: the left wheel gets 255 and 200 |
| CarServer.MalformedDragIsNoOp | src/carServer.h:87-95 | a drag whose suffix does not scan two integers changes nothing |
| CarServer.DragPansToX | src/carServer.h:87-95 | a drag message pans the camera to the angle of x |
| CarServer.InvalidFrameSizeForwarded | src/carServer.h:97-111 | "frameSize_FOO" hands INVALID to the sensor as written; the corrected dispatch hands nothing |
| CarServer.DispatchAsWrittenAgrees | src/carServer.h:75-185 | for every command but an unlisted frame-size name, the dispatch as written equals the corrected one |
| CarServer.DispatchAsWritten | src/carServer.h:97-111 | the dispatch that hands the looked-up size to the sensor unchecked; DispatchAsWrittenAgrees and InvalidFrameSizeForwarded state where it agrees with the corrected dispatch and where it does not |
| CarServer.FrameSizeSelectable | src/carServer.h:97-111 | every named size can be selected by its name |
| CarServer.ConnectReplies | src/carServer.h:188-212 | on connect the client gets the lamp state and Wi-Fi state, then the frame size when a sensor is present |
| CarServer.HandleFrame | src/carServer.h:214-239 | a received non-empty frame is handled as the C string of its payload and gives OK; an empty or failed frame does nothing; OK exactly when received, out-of-memory exactly when allocation failed |
| CarServer.FramedCommandIsHandled | src/carServer.h:214-239 | a frame holding a command, with or without a terminating NUL, is handled as that command |
| CarServer.PartHeaderFits | src/carServer.h:256-294 | the part header is 55 bytes plus the length's digits, so it fits the 64-byte buffer exactly when the length is below 10^8 |
| CarServer.PartHeader | src/carServer.h:294 | the multipart part header; PartHeaderFits and ParsePartHeaderRoundTrip state its length and that its Content-Length reads back as the frame length |
| CarServer.ParsePartHeaderRoundTrip | src/carServer.h:294 | the header's Content-Length reads back as the frame length |
| CarServer.StreamLoop | src/carServer.h:272-321 | the stream loop ends streaming with the gateway unchanged, or on a send failure with the car stopped, lamp off and the lock released |
| CarServer.StreamHandler | src/carServer.h:242-322 | the corrected handler rejects exactly when a client already streams; after it, the lock is held exactly when still streaming; a send failure stops the car with its lamp off; an early exit leaves the gateway unchanged |
| CarServer.StreamHandlerAsWrittenAgrees | src/carServer.h:242-322 | with a sensor present the handler as written equals the corrected one |
| CarServer.StreamHandlerAsWritten | src/carServer.h:242-322 | the handler that keeps the lock on the no-sensor exit; StreamHandlerAsWrittenAgrees and LockLeakCounterexample state where it agrees with the corrected handler and where it does not |
| CarServer.LockLeakCounterexample | src/carServer.h:249-263 | as written, an exit for a missing sensor keeps the lock and the next client is rejected; the corrected handler releases it |
| CarServer.SecondClientRejected | src/carServer.h:243-247 | while a client streams, any second request is rejected without change |
| CarServer.StreamLoopCountsFrames | src/carServer.h:272-315 | the loop counts exactly the frames whose header and body were both sent |
| Client.KeyMap | lib/script.js:222 | W, S, A and D, in either case, and no other key map to a pad id; KeyMapDrives states which move each one drives |
| Client.KeyMapDrives | lib/script.js:222 | the W/S/A/D keys, in either case, hold the controllers whose words parse to driving forward, backward, left and right |
| Client.FindEither | lib/script.js:231-232 | `find` returns an element equal to either value with no element equal to either before it, or nothing when neither occurs |
| Client.MoveCar | lib/script.js:224-246 | the pad message of the held keys; MoveCarSingle, MoveCarStops, MoveCarDiagonal, MoveCarOrderIndependent and MoveCarSendsIntent state what it sends |
| Client.MoveCarSingle | lib/script.js:224-246 | one held key sends its own name |
| Client.MoveCarStops | lib/script.js:224-246 | no keys, three or more, or two on the same axis send "stop" |
| Client.MoveCarOrderIndependent | lib/script.js:224-246 | the message for two keys does not depend on the order they were pressed |
| Client.MoveCarDiagonal | lib/script.js:233-235 | a vertical and a horizontal key send "vertical-horizontal" in either order, and it is a gateway command |
| Client.DiagonalToken | src/carServer.h:154-176 | each vertical-horizontal word is a non-empty gateway command |
| Client.Elements | lib/script.js:225 | the set of a key list has exactly its members |
| Client.DistinctElements | lib/script.js:225 | a duplicate-free list has as many members as its set |
| Client.MoveCarSendsIntent | lib/script.js:224-246 | whatever keys are held, the message is a gateway command word that parses to the move the held set stands for |
| Client.TwoKeysSendIntent | lib/script.js:229-236 | two held keys send the gateway the move of the pair |
| Client.OneKeySendsIntent | lib/script.js:227-228 | one held key sends the gateway its move |
| Client.OtherCountsStop | lib/script.js:239-245 | any other number of keys sends stop |
| Client.PairSendsIntent | lib/script.js:229-236 | two distinct pad keys send a gateway command that parses to the pair's move |
| Client.DiagonalIntent | lib/script.js:233-235 | the diagonal text parses to the diagonal move |
| Client.SameAxisIntent | lib/script.js:229-236 | two keys on one axis stand for stop |
| Client.ParsePadMessage | lib/script.js:224-246 | every movement word parses to stop or to the move it names |
| Client.MoveOfToken | src/carServer.h:130-176 | each movement word is the word of exactly one move |
| Client.Remove | lib/script.js:274 | `Set.delete` drops the id: the result keeps only members of the list, and on a duplicate-free list exactly the other members remain; RemoveAt states that their order is kept |
| Client.RemoveAt | lib/script.js:274 | deleting an id cuts out its first occurrence and leaves the elements before and after it in order |
| Client.StartAction | lib/script.js:248-267 | pressing a held key does nothing; pressing a new key appends it, starts its timer and sends the new message; key set and timers stay in step |
| Client.StopAction | lib/script.js:269-286 | releasing a key that is not held does nothing; otherwise the key leaves the set and its timer is cleared, and the new message is sent |
| Client.StartThenStopRestores | lib/script.js:248-286 | pressing and releasing a fresh key returns the pad to its state |
| Client.RemoveLast | lib/script.js:274 | deleting the last-added id restores the earlier list |
| Client.Events | lib/script.js:248-286 | any run of presses and releases keeps key set and timers in step |
| Client.PadMessagesAreTokens | lib/script.js:224-286 | after any run of presses and releases the pad's message is a gateway command |
| Client.WifiIndicator | lib/script.js:53-76 | hidden exactly for a missing or zero reading, and each band exactly for its RSSI range: at most 55, at most 75, at most 85, beyond |
| Client.WifiIndicatorMonotonic | lib/script.js:65-73 | for RSSI magnitudes 0 < a <= b, the band shown for b is the same as the band for a or comes after it in the order excellent, good, weak, poor |
| Client.Decode | lib/script.js:136-187 | the reply decoder; DecodePong, DecodeFlash, DecodeWifi and DecodeFrameSize state that it reads each gateway reply back as what the gateway sent |
| Client.DecodePong | lib/script.js:137-147 | the client reads the gateway's pong as the RSSI magnitude |
| Client.PongShowsSignal | lib/script.js:137-147 | a non-zero RSSI makes the pong show the indicator |
| Client.DecodeFlash | lib/script.js:149-157 | the client reads the lamp reply as the lamp state |
| Client.DecodeWifi | lib/script.js:165-187 | the client reads "WIFI-1" as station mode and "WIFI-0" as access-point mode |
| Client.FrameSizeNameHasNoDash | src/utils.h:19-68 | no frame-size name contains a dash, so splitting on dashes keeps it whole |
| Client.DecodeFrameSize | lib/script.js:159-163 | the client reads the frame-size reply as the size's name |
| Client.DecodeFrameReplyOf | lib/script.js:159-163 | a FRAMESIZE- reply carrying a dash-free name decodes to exactly that name |
| Client.FrameSelectionRoundTrip | lib/script.js:374-378 | sending back the size reported on connect selects that same size on the sensor |
| Client.FrameSizeMessage | lib/script.js:374-378 | the `frameSize_<value>` text the size selector sends; FrameSelectionRoundTrip states that sending back the reported size selects that same size |
| Client.FixedMessagesRecognised | lib/script.js:122 | the lamp, ping and reset messages of the page are the gateway's commands |
| Client.CameraMove | lib/script.js:423-434 | the drag stays within ±100 on both axes; a move that stays in range adds dx to x and subtracts dy from y, and one that leaves it stops at exactly +100 or -100 |
| Client.DragMessageRoundTrip | lib/script.js:402-421 | every drag message parses back to its coordinates and pans the camera to x's angle, the centre to 90 degrees |
| Client.DragMessage | lib/script.js:414 | the `cameraDrag_<x>_<y>` text of a drag; DragMessageRoundTrip states that it parses back to the drag and pans the camera to the angle of x |
| Client.DragIsMonotonic | lib/script.js:423-434 | dragging further right never turns the camera further left |

## Left out

- Hardware and drivers are not modelled: GPIO and LEDC set-up, the servo driver, the camera driver (`initCamera`, `initMotors`, `Car::tick`'s pin writes beyond the values returned), `blink` and `nowMs` itself. Their effects are returned as data or passed in.
- The lamp pin write in `toggleFlash` and `turnFlashOff` and the servo write to 90 degrees in `init` are not returned as writes; the lamp state and the initial angle are fields of the car.
- The HTTP server set-up (`startCarServer`), static file serving (`serveStaticFile`, `sendResponse`, the index/style/script handlers) and `capturePhotoHandler` are transport code with no logic beyond calls into the web server library.
- `src/main.cpp` (set-up, Wi-Fi provisioning, the main loop) is not part of this model.
- Concurrency is not modelled. The stream handler and the WebSocket handler run on separate tasks, and the check and set of `isClientActive` is not atomic in the source. The model runs one handler invocation at a time.
- The reset command's effect beyond the dispatch (erasing the stored credentials and restarting) is modelled only as the `restart` flag.
- The driving and camera calls in the stream loop's failure path (stop, lamp off) are modelled; the frame buffer return and the delays are not.
- Vehicle.Drive: the diagonal's inner-wheel speed `motorMax / 1.5` is computed in floating point; it is modelled as the constant 170 it evaluates to.
- Vehicle.Tick: one `now` is used for the servo, the watchdog and both motors, where the source reads the clock again in each step.
- Client.CameraMove: the mouse or touch delta times the 0.8 sensitivity and `Math.round` are floating point; the model takes the already scaled, rounded deltas as integers.
- Text.ParseInt: JavaScript's `parseInt` returns a double, so a digit run above 2^53 is rounded, while the model reads it exactly; this also applies to ParseIntRoundTrip. The RSSI text the page parses has at most three digits.
- Text.ScanInt: `sscanf`'s behaviour when a number overflows `int` is undefined in C; the model reads unbounded integers.
- CarServer.PingRssi: in access-point mode the station list is taken as given. The source does not check whether fetching it failed; `Utils.GetRSSIForClient` models that failure path for the lookup itself.
- CarServer.Dispatch: the drag calls `car.setCameraPosition(x, y)`, which does not exist in `src/Car.h`. The controller pans on one axis only, so the call is modelled as `setCameraX(x)` and y is dropped.
- Client: the page's DOM updates, timers' timing, the connection heartbeat, reconnection and photo capture are left out; the key pad's timers are modelled as the set of ids that hold one.

## Findings

| source | as written | input that shows it | evidently intended | confidence | as-written member | corrected member |
|---|---|---|---|---|---|---|
| src/Motor.h:84-88 | the ramp adds or subtracts the step in `uint8_t` with no saturation, so it wraps before the target test | floor 201, target 255, step 5: the speed reaches 251 and the next step stores 0, so the channels are written 0 | the speed saturates at the target (255) | not executed; this car's own settings (floor 200, step 5) never reach the wrap | Motors.WrapCounterexample | Motors.Tick |
| src/Motor.h:70 | `_lastUpdate` is an `unsigned long` (32 bits on the ESP32) and stores the 64-bit `nowMs()` truncated | after 2^32 ms of uptime, ticks at 2^32 + 100 and 2^32 + 101 ms both update, because the stored time reads as 100 | the stamp keeps the full 64-bit time, so the update interval holds | not executed | Motors.TimestampTruncationCounterexample | Motors.Tick |
| src/carServer.h:258-263 | the exit for a missing sensor returns without clearing `isClientActive`, which was set just before | a stream request while no sensor is present, then any second request | the lock is released on every exit, as it is on the set-type failure exit | not executed | CarServer.LockLeakCounterexample | CarServer.StreamHandler |
| src/carServer.h:97-111 | an unknown frame-size name is looked up to `FRAMESIZE_INVALID` and handed to `set_framesize` | "frameSize_FOO" with a sensor present | an unknown name is ignored | not executed | CarServer.InvalidFrameSizeForwarded | CarServer.Dispatch |

=== FILE: bounded.dfy ===
/**
 Fixed-width integers of the target platform and the few C/Arduino arithmetic
 helpers the rest of the model needs. Dafny integers are unbounded, so every
 width, wrap-around and truncating division of the firmware is written out here.
 */
module Bounded {

  type u8 = x: int | 0 <= x < 0x100
  type u16 = x: int | 0 <= x < 0x1_0000
  type u32 = x: int | 0 <= x < 0x1_0000_0000
  type u64 = x: int | 0 <= x < 0x1_0000_0000_0000_0000
  type i8 = x: int | -0x80 <= x < 0x80

  const U8_MODULUS: int := 0x100
  const U32_MODULUS: int := 0x1_0000_0000
  const U64_MODULUS: int := 0x1_0000_0000_0000_0000
  const I64_LIMIT: int := 0x8000_0000_0000_0000

  datatype Option<+T> = None | Some(value: T)

  /** Arduino's `constrain(x, lo, hi)` macro. */
  function Constrain(x: int, lo: int, hi: int): (r: int)
    ensures lo <= hi ==> lo <= r <= hi
    ensures lo <= x <= hi ==> r == x
    ensures x < lo ==> r == lo
    ensures lo <= x && hi < x ==> r == hi
  {
    if x < lo then lo else if x > hi then hi else x
  }

  /** Unsigned 64-bit subtraction: wraps modulo 2^64 as C does. */
  function SubU64(a: u64, b: u64): (r: u64)
    ensures b <= a ==> r == a - b
    ensures a < b ==> r == a - b + U64_MODULUS
  {
    (a - b) % U64_MODULUS
  }

  /** Conversion of an int to `uint8_t`: keeps the low eight bits. */
  function ToU8(x: int): (r: u8)
    ensures 0 <= x < U8_MODULUS ==> r == x
    ensures U8_MODULUS <= x < 2 * U8_MODULUS ==> r == x - U8_MODULUS
    ensures -U8_MODULUS <= x < 0 ==> r == x + U8_MODULUS
  {
    x % U8_MODULUS
  }

  /** C's integer division, which truncates toward zero. */
  function DivTrunc(a: int, b: int): (r: int)
    requires b != 0
    ensures 0 <= a && 0 < b ==> r == a / b
    ensures a < 0 && 0 < b ==> r == -((-a) / b)
  {
    var q := Abs(a) / Abs(b);
    if (a < 0) == (b < 0) then q else -q
  }

  /** C's `abs`. */
  function Abs(x: int): (r: nat)
    ensures r == x || r == -x
  {
    if x < 0 then -x else x
  }

  function Min(a: int, b: int): (r: int)
    ensures r <= a && r <= b && (r == a || r == b)
  {
    if a < b then a else b
  }

  function Max(a: int, b: int): (r: int)
    ensures r >= a && r >= b && (r == a || r == b)
  {
    if a < b then b else a
  }
}

=== FILE: car_server.dfy ===
/**
 The command and stream gateway: the WebSocket text-command grammar, parsed
 into a closed `Command` and then dispatched to the controller; the reply
 strings; the connect greeting; and the MJPEG stream handler's client lock and
 multipart part header. Transport calls are left out: replies and driver calls
 are returned as data, and what the transport and camera report is passed in.
 */
module CarServer {
  import opened Bounded
  import opened Utils
  import opened Text
  import V = Vehicle

  // ---------------------------------------------------------------------------
  // Command grammar
  // ---------------------------------------------------------------------------

  /** The commands `handleCarCommand` distinguishes. */
  datatype Command =
    | ToggleFlash
      /** `cameraDrag_<x>_<y>`; `coords` is None when the two integers do not scan. */
    | CameraDrag(coords: Option<(int, int)>)
    | ChangeFrameSize(name: string)
    | ResetSettings
    | Ping
    | Drive(mv: V.Move)
    | StopCar
    | Unknown

  const DragPrefix: string := "cameraDrag_"
  const FramePrefix: string := "frameSize_"

  /** The wire name of each directional command. */
  function MoveToken(mv: V.Move): string {
    match mv
    case Forward => "forward"
    case Backward => "backward"
    case Left => "left"
    case Right => "right"
    case ForwardLeft => "forward-left"
    case ForwardRight => "forward-right"
    case BackwardLeft => "backward-left"
    case BackwardRight => "backward-right"
  }

  /** The messages compared exactly (with `strcmp`) after the two prefix tests. */
  const WordTokens: seq<string> :=
    ["reset", "ping", "forward", "backward", "left", "right",
     "forward-left", "forward-right", "backward-left", "backward-right", "stop"]

  /** Every message compared exactly. */
  const ExactTokens: seq<string> := ["toggleFlash"] + WordTokens

  /** A message the gateway acts on: an exact token or one of the two prefixes. */
  predicate Recognised(msg: string) {
    msg in ExactTokens || DragPrefix <= msg || FramePrefix <= msg
  }

  /** The comparison chain of `handleCarCommand`, in source order. */
  function Parse(msg: string): (cmd: Command)
    ensures cmd == ToggleFlash <==> msg == "toggleFlash"
    ensures cmd.CameraDrag? <==> DragPrefix <= msg
    ensures cmd.CameraDrag? ==> cmd.coords == ScanTwoInts(msg[|DragPrefix|..])
    ensures cmd.ChangeFrameSize? <==> FramePrefix <= msg
    ensures cmd.ChangeFrameSize? ==> msg == FramePrefix + cmd.name
    ensures cmd == ResetSettings <==> msg == "reset"
    ensures cmd == Ping <==> msg == "ping"
    ensures cmd == StopCar <==> msg == "stop"
    ensures cmd.Drive? ==> msg == MoveToken(cmd.mv)
    ensures cmd.Unknown? <==> !Recognised(msg)
  {
    if msg == "toggleFlash" then
      NotPrefixAt(DragPrefix, msg, 0);
      NotPrefixAt(FramePrefix, msg, 0);
      ToggleFlash
    else if DragPrefix <= msg then
      PrefixChar(DragPrefix, msg, 0);
      NotPrefixAt(FramePrefix, msg, 0);
      CameraDrag(ScanTwoInts(msg[|DragPrefix|..]))
    else if FramePrefix <= msg then
      assert msg == FramePrefix + msg[|FramePrefix|..];
      NotPrefixAt(DragPrefix, msg, 0);
      ChangeFrameSize(msg[|FramePrefix|..])
    else ParseWord(msg)
  }

  /** The exact comparisons after the prefix tests. */
  function ParseWord(msg: string): (cmd: Command)
    ensures cmd == ResetSettings <==> msg == "reset"
    ensures cmd == Ping <==> msg == "ping"
    ensures cmd == StopCar <==> msg == "stop"
    ensures cmd.Drive? ==> msg == MoveToken(cmd.mv)
    ensures cmd.Unknown? <==> msg !in WordTokens
    ensures !cmd.ToggleFlash? && !cmd.CameraDrag? && !cmd.ChangeFrameSize?
  {
    if msg == "reset" then ResetSettings
    else if msg == "ping" then Ping
    else if msg == "forward" then Drive(V.Forward)
    else if msg == "backward" then Drive(V.Backward)
    else if msg == "left" then Drive(V.Left)
    else if msg == "right" then Drive(V.Right)
    else if msg == "forward-left" then Drive(V.ForwardLeft)
    else if msg == "forward-right" then Drive(V.ForwardRight)
    else if msg == "backward-left" then Drive(V.BackwardLeft)
    else if msg == "backward-right" then Drive(V.BackwardRight)
    else if msg == "stop" then StopCar
    else Unknown
  }

  /** A string that differs from `p` at some position of both does not start with `p`. */
  lemma NotPrefixAt(p: string, s: string, i: nat)
    requires i < |p| && i < |s| && p[i] != s[i]
    ensures !(p <= s)
  {
  }

  lemma PrefixChar(p: string, s: string, i: nat)
    requires p <= s && i < |p|
    ensures i < |s| && s[i] == p[i]
  {
  }

  /** No exact token starts with either prefix, so the prefix tests never capture one. */
  lemma ExactTokensHaveNoPrefix(msg: string)
    requires msg in ExactTokens
    ensures !(DragPrefix <= msg) && !(FramePrefix <= msg)
  {
    if |msg| >= |FramePrefix| {
      NotPrefixAt(DragPrefix, msg, 0);
      if msg[0] == 'f' {
        NotPrefixAt(FramePrefix, msg, 1);
      } else {
        NotPrefixAt(FramePrefix, msg, 0);
      }
    }
  }

  /** Different commands have different tokens; `forward` is not `forward-left`. */
  lemma MoveTokensDistinct(a: V.Move, b: V.Move)
    requires a != b
    ensures MoveToken(a) != MoveToken(b)
  {
  }

  /** Each directional token selects exactly its own command. */
  lemma ParseMoveToken(mv: V.Move)
    ensures Parse(MoveToken(mv)) == Drive(mv)
    ensures MoveToken(mv) in ExactTokens
  {
    var msg := MoveToken(mv);
    assert msg in ExactTokens;
    ExactTokensHaveNoPrefix(msg);
    var cmd := Parse(msg);
    assert cmd.Drive?;
    if cmd.mv != mv {
      MoveTokensDistinct(cmd.mv, mv);
    }
  }

  /** The canonical text of a command, the inverse of `Parse`. */
  function CommandText(cmd: Command): string
    requires !cmd.Unknown?
  {
    match cmd
    case ToggleFlash => "toggleFlash"
    case CameraDrag(coords) =>
      if coords.Some? then DragPrefix + (IntToString(coords.value.0) + "_" + IntToString(coords.value.1))
      else DragPrefix
    case ChangeFrameSize(name) => FramePrefix + name
    case ResetSettings => "reset"
    case Ping => "ping"
    case Drive(mv) => MoveToken(mv)
    case StopCar => "stop"
  }

  /** Parsing the text of a command gives the command back. */
  lemma ParseCommandText(cmd: Command)
    requires !cmd.Unknown?
    ensures Parse(CommandText(cmd)) == cmd
  {
    var text := CommandText(cmd);
    match cmd
    case ToggleFlash =>
    case CameraDrag(coords) =>
      ParseDragText(coords);
    case ChangeFrameSize(name) =>
      ParseFrameSizeText(name);
    case ResetSettings =>
      ExactTokensHaveNoPrefix(text);
    case Ping =>
      ExactTokensHaveNoPrefix(text);
    case Drive(mv) =>
      ParseMoveToken(mv);
    case StopCar =>
      ExactTokensHaveNoPrefix(text);
  }

  lemma ParseDragText(coords: Option<(int, int)>)
    ensures Parse(CommandText(CameraDrag(coords))) == CameraDrag(coords)
  {
    if coords.Some? {
      ParseDragOf(coords.value.0, coords.value.1);
    } else {
      assert DragPrefix <= DragPrefix;
      assert DragPrefix[|DragPrefix|..] == [];
    }
  }

  lemma ParseDragOf(x: int, y: int)
    ensures Parse(DragPrefix + (IntToString(x) + "_" + IntToString(y))) == CameraDrag(Some((x, y)))
  {
    var tail := IntToString(x) + "_" + IntToString(y);
    var text := DragPrefix + tail;
    assert DragPrefix <= text;
    assert text[|DragPrefix|..] == tail;
    ScanTwoIntsRoundTrip(x, y);
  }

  lemma ParseFrameSizeText(name: string)
    ensures Parse(CommandText(ChangeFrameSize(name))) == ChangeFrameSize(name)
  {
    var text := CommandText(ChangeFrameSize(name));
    assert FramePrefix <= text;
    assert text[|FramePrefix|..] == name;
  }

  /** Every exact token and every frame-size message is the text of what it parses to. */
  lemma CommandTextOfParse(msg: string)
    requires msg in ExactTokens || FramePrefix <= msg
    ensures !Parse(msg).Unknown? && CommandText(Parse(msg)) == msg
  {
    if msg in ExactTokens {
      ExactTokensHaveNoPrefix(msg);
    }
  }

  // ---------------------------------------------------------------------------
  // Replies
  // ---------------------------------------------------------------------------

  /** The lamp state as reported after `toggleFlash` and on connect. */
  function FlashReply(on: bool): (s: string)
    ensures s == "Flash-ON" || s == "Flash-OFF"
    ensures s == "Flash-ON" <==> on
  {
    if on then "Flash-ON" else "Flash-OFF"
  }

  function OnOff(on: bool): string {
    if on then "ON" else "OFF"
  }

  /** `pong-<abs(rssi)>-<ON|OFF>`. */
  function PongReply(rssi: int, flashOn: bool): string {
    "pong-" + NatToString(Abs(rssi)) + "-" + OnOff(flashOn)
  }

  /** `WIFI-<0|1>` on connect. */
  function WifiReply(connected: bool): string {
    if connected then "WIFI-1" else "WIFI-0"
  }

  /** `FRAMESIZE-<name>` on connect. */
  function FrameReply(size: FrameSize): string {
    "FRAMESIZE-" + FrameSizeToString(size)
  }

  /** No frame-size name is longer than 17 characters. */
  lemma FrameSizeNameLength(size: FrameSize)
    ensures |FrameSizeToString(size)| <= 17
  {
  }

  /**
   Every reply fits its `snprintf` buffer with room for the terminator, so none
   is truncated: 40 bytes for the pong (the RSSI is an eight-bit value), 16 for
   the WIFI status and 64 for the frame size.
   */
  lemma RepliesFitTheirBuffers(rssi: i8, flashOn: bool, connected: bool, size: FrameSize)
    ensures |PongReply(rssi, flashOn)| < 40
    ensures |WifiReply(connected)| < 16
    ensures |FrameReply(size)| < 64
  {
    NatToStringLength(Abs(rssi), 3);
    FrameSizeNameLength(size);
  }

  /** The pong reply reads back as its three dash-separated fields. */
  lemma PongReplyFields(rssi: int, flashOn: bool)
    ensures PongReply(rssi, flashOn) == "pong" + "-" + NatToString(Abs(rssi)) + "-" + OnOff(flashOn)
    ensures '-' !in NatToString(Abs(rssi)) && '-' !in "pong"
  {
    var d := NatToString(Abs(rssi));
    assert forall i | 0 <= i < |d| :: d[i] != '-';
  }

  // ---------------------------------------------------------------------------
  // Dispatch
  // ---------------------------------------------------------------------------

  /**
   What the handlers read from the outside world: the clock, the camera sensor
   (its current frame size, None when absent), the WiFi mode and signal, the
   access point's station list and the station-mode connection state.
   */
  datatype Env = Env(
    now: u64,
    sensor: Option<FrameSize>,
    apMode: bool,
    stations: seq<Station>,
    staRssi: i8,
    wifiConnected: bool)

  /**
   What handling one command produces: the new controller state, the reply
   sent back (if any), the frame size handed to the sensor (if any), and
   whether the settings are reset and the board restarted.
   */
  datatype Outcome = Outcome(car: V.Car, reply: Option<string>, framesize: Option<FrameSize>, restart: bool)

  /** The RSSI the pong reports: the first station's in access-point mode, else the station link's. */
  function PingRssi(env: Env): int {
    if env.apMode then GetClientRSSI(env.stations) else env.staRssi
  }

  /**
   `handleCarCommand`'s dispatch as written: a frame-size name outside the
   table is still handed to the sensor as the sentinel.
   */
  function DispatchAsWritten(car: V.Car, cmd: Command, env: Env): Outcome {
    if cmd.ChangeFrameSize? && env.sensor.Some? then
      Outcome(car, None, Some(StringToFrameSize(Some(cmd.name))), false)
    else Dispatch(car, cmd, env)
  }

  /**
   The dispatch with the frame-size check: only a named size reaches the
   sensor. The camera drag uses x only: the two-argument call in the source
   has no counterpart in the controller, which pans on one axis.
   */
  function Dispatch(car: V.Car, cmd: Command, env: Env): (r: Outcome)
    ensures cmd.Unknown? ==> r == Outcome(car, None, None, false)
    ensures r.reply.Some? <==> cmd == ToggleFlash || cmd == Ping
    ensures cmd == ToggleFlash ==> r.car == V.ToggleFlash(car) && r.reply == Some(FlashReply(r.car.flashOn))
    ensures cmd == ResetSettings ==> r.car == car
    ensures cmd == Ping ==> r.car == car && r.reply == Some(PongReply(PingRssi(env), car.flashOn))
    ensures cmd.Drive? ==> r.car == V.Drive(car, cmd.mv, env.now)
    ensures cmd == StopCar ==> r.car == V.Stop(car)
    ensures cmd.CameraDrag? && cmd.coords.Some? ==> r.car == V.SetCameraX(car, cmd.coords.value.0)
    ensures cmd.CameraDrag? && cmd.coords.None? ==> r == Outcome(car, None, None, false)
    ensures r.framesize.Some? <==> cmd.ChangeFrameSize? && env.sensor.Some? && StringToFrameSize(Some(cmd.name)) != Invalid
    ensures r.framesize.Some? ==> FrameSizeToString(r.framesize.value) == cmd.name
    ensures cmd.ChangeFrameSize? ==> r.car == car
    ensures r.restart <==> cmd == ResetSettings
    ensures V.Valid(car) ==> V.Valid(r.car)
    ensures V.Configured(car) ==> V.Configured(r.car)
  {
    match cmd
    case ToggleFlash =>
      var c := V.ToggleFlash(car);
      Outcome(c, Some(FlashReply(c.flashOn)), None, false)
    case CameraDrag(coords) =>
      if coords.Some? then Outcome(V.SetCameraX(car, coords.value.0), None, None, false)
      else Outcome(car, None, None, false)
    case ChangeFrameSize(name) =>
      var size := StringToFrameSize(Some(name));
      if env.sensor.None? || size == Invalid then Outcome(car, None, None, false)
      else
        StringToFrameSizeRoundTrip(Some(name));
        Outcome(car, None, Some(size), false)
    case ResetSettings => Outcome(car, None, None, true)
    case Ping => Outcome(car, Some(PongReply(PingRssi(env), car.flashOn)), None, false)
    case Drive(mv) => Outcome(V.Drive(car, mv, env.now), None, None, false)
    case StopCar => Outcome(V.Stop(car), None, None, false)
    case Unknown => Outcome(car, None, None, false)
  }

  /**
   The corrected `handleCarCommand`: parse, then the corrected dispatch. The
   source's handler is `DispatchAsWritten` applied to the parsed command.
   */
  function HandleCarCommand(car: V.Car, msg: string, env: Env): (r: Outcome)
    ensures !Recognised(msg) ==> r == Outcome(car, None, None, false)
    ensures V.Valid(car) ==> V.Valid(r.car)
  {
    Dispatch(car, Parse(msg), env)
  }

  /** Each directional token drives the car exactly as its controller method does. */
  lemma MoveTokenDrives(car: V.Car, mv: V.Move, env: Env)
    ensures HandleCarCommand(car, MoveToken(mv), env) == Outcome(V.Drive(car, mv, env.now), None, None, false)
  {
    ParseMoveToken(mv);
  }

  /** `forward` and `forward-left` leave a configured car in different states. */
  lemma ForwardIsNotForwardLeft(car: V.Car, env: Env)
    requires V.Configured(car)
    ensures HandleCarCommand(car, MoveToken(V.Forward), env).car.left.target == V.MotorMax
    ensures HandleCarCommand(car, MoveToken(V.ForwardLeft), env).car.left.target == V.MinPwm
  {
    MoveTokenDrives(car, V.Forward, env);
    MoveTokenDrives(car, V.ForwardLeft, env);
    V.InnerWheelRaisedToFloor(car, V.ForwardLeft, env.now);
  }

  /** A drag whose suffix does not scan as two integers changes nothing. */
  lemma MalformedDragIsNoOp(car: V.Car, suffix: string, env: Env)
    requires ScanTwoInts(suffix).None?
    ensures HandleCarCommand(car, DragPrefix + suffix, env) == Outcome(car, None, None, false)
  {
    assert (DragPrefix + suffix)[|DragPrefix|..] == suffix;
  }

  /** A rendered drag pans the camera to the angle of x; y has no effect. */
  lemma DragPansToX(car: V.Car, x: int, y: int, env: Env)
    ensures HandleCarCommand(car, CommandText(CameraDrag(Some((x, y)))), env).car == V.SetCameraX(car, x)
  {
    ParseCommandText(CameraDrag(Some((x, y))));
  }

  /**
   As written, a name outside the table is passed to the sensor as the
   sentinel; the corrected dispatch hands nothing to the sensor.
   */
  lemma InvalidFrameSizeForwarded(car: V.Car, env: Env)
    requires env.sensor.Some?
    ensures DispatchAsWritten(car, Parse("frameSize_FOO"), env).framesize == Some(Invalid)
    ensures Dispatch(car, Parse("frameSize_FOO"), env).framesize == None
  {
    assert FramePrefix <= "frameSize_FOO";
    assert "frameSize_FOO" == FramePrefix + "FOO";
    var cmd := Parse("frameSize_FOO");
    assert cmd == ChangeFrameSize("FOO");
    ShortNamesAreInvalid("FOO");
  }

  /** Apart from the sentinel case the two dispatches agree. */
  lemma DispatchAsWrittenAgrees(car: V.Car, cmd: Command, env: Env)
    requires cmd.ChangeFrameSize? ==> StringToFrameSize(Some(cmd.name)) != Invalid
    ensures DispatchAsWritten(car, cmd, env) == Dispatch(car, cmd, env)
  {
  }

  /** Every named size can be selected by its name. */
  lemma FrameSizeSelectable(car: V.Car, size: FrameSize, env: Env)
    requires size != Invalid && env.sensor.Some?
    ensures HandleCarCommand(car, FramePrefix + FrameSizeToString(size), env).framesize == Some(size)
  {
    FrameSizeRoundTrip(size);
    ParseCommandText(ChangeFrameSize(FrameSizeToString(size)));
  }

  // ---------------------------------------------------------------------------
  // WebSocket handler
  // ---------------------------------------------------------------------------

  /** The greeting sent on connect: lamp, WiFi, then the frame size if a sensor is present. */
  function ConnectReplies(car: V.Car, env: Env): (r: seq<string>)
    ensures |r| == (if env.sensor.Some? then 3 else 2)
    ensures r[0] == FlashReply(car.flashOn) && r[1] == WifiReply(env.wifiConnected)
    ensures env.sensor.Some? ==> r[2] == FrameReply(env.sensor.value)
  {
    [FlashReply(car.flashOn), WifiReply(env.wifiConnected)]
      + (if env.sensor.Some? then [FrameReply(env.sensor.value)] else [])
  }

  /** What the transport delivers for one incoming WebSocket frame. */
  datatype Receipt =
    | ProbeFailed          // reading the frame length failed
    | Received(payload: string)
    | OutOfMemory          // the payload buffer could not be allocated
    | ReadFailed           // reading the payload failed

  datatype Status = Ok | Failed | NoMemory

  /**
   `websocketHandler` for a data frame: an empty payload and every failure
   leave the car alone; otherwise the payload, up to its first NUL, is a
   command.
   */
  function HandleFrame(car: V.Car, receipt: Receipt, env: Env): (r: (Outcome, Status))
    ensures receipt.Received? && |receipt.payload| > 0 ==>
              r == (HandleCarCommand(car, CString(receipt.payload), env), Ok)
    ensures !(receipt.Received? && |receipt.payload| > 0) ==> r.0 == Outcome(car, None, None, false)
    ensures r.1 == Ok <==> receipt.Received?
    ensures r.1 == NoMemory <==> receipt == OutOfMemory
  {
    match receipt
    case ProbeFailed => (Outcome(car, None, None, false), Failed)
    case Received(payload) =>
      if |payload| == 0 then (Outcome(car, None, None, false), Ok)
      else (HandleCarCommand(car, CString(payload), env), Ok)
    case OutOfMemory => (Outcome(car, None, None, false), NoMemory)
    case ReadFailed => (Outcome(car, None, None, false), Failed)
  }

  /** A command sent as a frame, with or without a trailing NUL, is handled as itself. */
  lemma FramedCommandIsHandled(car: V.Car, msg: string, env: Env)
    requires |msg| > 0 && '\0' !in msg
    ensures HandleFrame(car, Received(msg), env).0 == HandleCarCommand(car, msg, env)
    ensures HandleFrame(car, Received(msg + "\0"), env).0 == HandleCarCommand(car, msg, env)
  {
    CStringOf(msg, []);
    assert msg + "\0" == msg + ['\0'] + [];
  }

  // ---------------------------------------------------------------------------
  // Multipart part header
  // ---------------------------------------------------------------------------

  const PartPrefix: string := "--frame\r\nContent-Type: image/jpeg\r\nContent-Length: "
  const PartSuffix: string := "\r\n\r\n"
  /** Size of the buffer the header is formatted into. */
  const PartBufferSize: nat := 64

  /** The part header for a JPEG of `length` bytes. */
  function PartHeader(length: nat): string {
    PartPrefix + NatToString(length) + PartSuffix
  }

  /** The header is 55 fixed bytes plus the decimal length, so it fits exactly below 10^8. */
  lemma PartHeaderFits(length: nat)
    ensures |PartHeader(length)| == 55 + |NatToString(length)|
    ensures |PartHeader(length)| < PartBufferSize <==> length < Pow10(8)
  {
    NatToStringLength(length, 8);
  }

  /** Reads the length back out of a part header. */
  function ParsePartHeader(s: string): Option<nat> {
    if PartPrefix <= s then
      match ScanUnsigned(s[|PartPrefix|..])
      case Some((n, rest)) => if rest == PartSuffix then Some(n) else None
      case None => None
    else None
  }

  lemma ParsePartHeaderRoundTrip(length: nat)
    ensures ParsePartHeader(PartHeader(length)) == Some(length)
  {
    var h := PartHeader(length);
    assert PartPrefix <= h;
    assert h[|PartPrefix|..] == NatToString(length) + PartSuffix;
    ScanUnsignedRoundTrip(length, PartSuffix);
  }

  // ---------------------------------------------------------------------------
  // Stream handler
  // ---------------------------------------------------------------------------

  /** The gateway's state: the controller and the stream lock (`isClientActive`). */
  datatype Gateway = Gateway(car: V.Car, clientActive: bool)

  /** One pass of the streaming loop, as the camera and the transport report it. */
  datatype FrameEvent =
    | NoFrame                      // no frame buffer available: wait and retry
    | ConvertFailed                // a non-JPEG frame that did not convert: retry
    | Frame(length: nat, headerSent: bool, bodySent: bool)

  /** What the camera reports when a stream starts, and the passes of its loop. */
  datatype StreamEnv = StreamEnv(sensorPresent: bool, setTypeOk: bool, events: seq<FrameEvent>)

  datatype StreamEnd =
    | Rejected        // another client holds the stream
    | NoSensor
    | SetTypeFailed
    | SendFailed      // a chunk could not be sent: the loop ends
    | Streaming       // every reported pass succeeded; the loop goes on

  datatype StreamResult = StreamResult(gateway: Gateway, end: StreamEnd, framesSent: nat)

  /**
   The streaming loop: retries on missing or unconvertible frames, and on the
   first failed send releases the lock, stops the car and turns the lamp off.
   */
  function StreamLoop(g: Gateway, events: seq<FrameEvent>, sent: nat): (r: StreamResult)
    requires g.clientActive
    ensures r.end == Streaming || r.end == SendFailed
    ensures r.end == Streaming ==> r.gateway == g
    ensures r.end == SendFailed ==> r.gateway == Gateway(V.TurnFlashOff(V.Stop(g.car)), false)
    ensures r.framesSent >= sent
    decreases |events|
  {
    if |events| == 0 then StreamResult(g, Streaming, sent)
    else match events[0]
      case NoFrame => StreamLoop(g, events[1..], sent)
      case ConvertFailed => StreamLoop(g, events[1..], sent)
      case Frame(_, headerSent, bodySent) =>
        if headerSent && bodySent then StreamLoop(g, events[1..], sent + 1)
        else StreamResult(Gateway(V.TurnFlashOff(V.Stop(g.car)), false), SendFailed, sent)
  }

  /** `streamHandler` as written: the no-sensor exit keeps the lock. */
  function StreamHandlerAsWritten(g: Gateway, env: StreamEnv): StreamResult {
    if g.clientActive then StreamResult(g, Rejected, 0)
    else
      var g := g.(clientActive := true);
      if !env.sensorPresent then StreamResult(g, NoSensor, 0)
      else if !env.setTypeOk then StreamResult(g.(clientActive := false), SetTypeFailed, 0)
      else StreamLoop(g, env.events, 0)
  }

  /** `streamHandler` with the lock released on the no-sensor exit too. */
  function StreamHandler(g: Gateway, env: StreamEnv): (r: StreamResult)
    ensures r.end == Rejected <==> g.clientActive
    ensures r.end == Rejected ==> r == StreamResult(g, Rejected, 0)
    ensures r.end != Rejected ==> (r.end == Streaming <==> r.gateway.clientActive)
    ensures r.end == SendFailed ==> r.gateway.car == V.TurnFlashOff(V.Stop(g.car))
    ensures r.end == NoSensor || r.end == SetTypeFailed ==> r.gateway == g
  {
    if g.clientActive then StreamResult(g, Rejected, 0)
    else
      var g' := g.(clientActive := true);
      if !env.sensorPresent then StreamResult(g, NoSensor, 0)
      else if !env.setTypeOk then StreamResult(g, SetTypeFailed, 0)
      else StreamLoop(g', env.events, 0)
  }

  /** Both handlers agree except on the no-sensor exit. */
  lemma StreamHandlerAsWrittenAgrees(g: Gateway, env: StreamEnv)
    requires env.sensorPresent
    ensures StreamHandlerAsWritten(g, env) == StreamHandler(g, env)
  {
  }

  /**
   As written, one stream request without a sensor leaves the lock held, and
   every later request is rejected; the corrected handler accepts the next one.
   */
  lemma LockLeakCounterexample(car: V.Car, next: StreamEnv)
    ensures
      var first := StreamHandlerAsWritten(Gateway(car, false), StreamEnv(false, true, []));
      && first.end == NoSensor && first.gateway.clientActive
      && StreamHandlerAsWritten(first.gateway, next).end == Rejected
    ensures
      var first := StreamHandler(Gateway(car, false), StreamEnv(false, true, []));
      && first.end == NoSensor && !first.gateway.clientActive
      && StreamHandler(first.gateway, next).end != Rejected
  {
  }

  /** While one client streams, a second request is turned away and changes nothing. */
  lemma SecondClientRejected(g: Gateway, first: StreamEnv, second: StreamEnv)
    ensures
      var r := StreamHandler(g, first);
      r.end == Streaming ==> StreamHandler(r.gateway, second) == StreamResult(r.gateway, Rejected, 0)
  {
  }

  /** The frames counted as sent are the passes with a fully sent frame before the first failure. */
  function FramesDelivered(events: seq<FrameEvent>): nat
    decreases |events|
  {
    if |events| == 0 then 0
    else match events[0]
      case Frame(_, headerSent, bodySent) =>
        if headerSent && bodySent then 1 + FramesDelivered(events[1..]) else 0
      case _ => FramesDelivered(events[1..])
  }

  lemma {:induction false} StreamLoopCountsFrames(g: Gateway, events: seq<FrameEvent>, sent: nat)
    requires g.clientActive
    ensures StreamLoop(g, events, sent).framesSent == sent + FramesDelivered(events)
    decreases |events|
  {
    if |events| > 0 {
      match events[0]
      case Frame(_, headerSent, bodySent) =>
        if headerSent && bodySent {
          StreamLoopCountsFrames(g, events[1..], sent + 1);
        }
      case _ => StreamLoopCountsFrames(g, events[1..], sent);
    }
  }
}

=== FILE: client.dfy ===
/**
 The pure parts of the browser client: the direction pad's active-key
 bookkeeping and the command it sends, the signal-strength indicator, the
 decoding of the gateway's replies, and the camera drag clamp. The DOM, the
 timers and the socket are left out; what the client sends is returned as data.
 */
module Client {
  import opened Bounded
  import opened Utils
  import opened Text
  import V = Vehicle
  import S = CarServer

  // ---------------------------------------------------------------------------
  // Direction pad
  // ---------------------------------------------------------------------------

  /** The ids of the four movement controllers, which are also their command names. */
  const PadIds: set<string> := {"forward", "backward", "left", "right"}

  /** `keyMap`, applied to `e.key.toLowerCase()`. */
  function KeyMap(key: string): (id: Option<string>)
    ensures id.Some? ==> id.value in PadIds
    ensures id.Some? <==> key in {"w", "W", "s", "S", "a", "A", "d", "D"}
  {
    if key == "w" || key == "W" then Some("forward")
    else if key == "s" || key == "S" then Some("backward")
    else if key == "a" || key == "A" then Some("left")
    else if key == "d" || key == "D" then Some("right")
    else None
  }

  /** W, S, A and D, in either case, hold the controllers that drive forward, backward, left and right. */
  lemma KeyMapDrives(key: string)
    ensures key in {"w", "W"} ==> KeyMap(key) == Some(S.MoveToken(V.Forward)) && S.Parse(KeyMap(key).value) == S.Drive(V.Forward)
    ensures key in {"s", "S"} ==> KeyMap(key) == Some(S.MoveToken(V.Backward)) && S.Parse(KeyMap(key).value) == S.Drive(V.Backward)
    ensures key in {"a", "A"} ==> KeyMap(key) == Some(S.MoveToken(V.Left)) && S.Parse(KeyMap(key).value) == S.Drive(V.Left)
    ensures key in {"d", "D"} ==> KeyMap(key) == Some(S.MoveToken(V.Right)) && S.Parse(KeyMap(key).value) == S.Drive(V.Right)
  {
    if key in {"w", "W"} {
      S.ParseMoveToken(V.Forward);
    } else if key in {"s", "S"} {
      S.ParseMoveToken(V.Backward);
    } else if key in {"a", "A"} {
      S.ParseMoveToken(V.Left);
    } else if key in {"d", "D"} {
      S.ParseMoveToken(V.Right);
    }
  }

  predicate NoDup(s: seq<string>) {
    forall i, j | 0 <= i < j < |s| :: s[i] != s[j]
  }

  /**
   The pad's state: `activeKeys`, a set that remembers insertion order, and the
   ids that have a repeat timer in `intervals`.
   */
  datatype Pad = Pad(active: seq<string>, timers: set<string>)

  /** The key set holds no id twice, and an id has a timer exactly when it is active. */
  predicate InSync(p: Pad) {
    NoDup(p.active) && p.timers == Elements(p.active)
  }

  const EmptyPad: Pad := Pad([], {})

  /** `Array.prototype.find` for the first of two values. */
  function FindEither(d: seq<string>, a: string, b: string): (r: Option<string>)
    ensures r.Some? ==> (r.value == a || r.value == b) && r.value in d
    ensures r.None? ==> a !in d && b !in d
    ensures |d| > 0 && (d[0] == a || d[0] == b) ==> r == Some(d[0])
    ensures r.Some? ==> exists i | 0 <= i < |d| :: d[i] == r.value && forall j | 0 <= j < i :: d[j] != a && d[j] != b
  {
    if |d| == 0 then None
    else if d[0] == a || d[0] == b then Some(d[0])
    else FindEither(d[1..], a, b)
  }

  /** `moveCar`: the message for the current active keys. */
  function MoveCar(directions: seq<string>): string {
    var output :=
      if |directions| == 1 then directions[0]
      else if |directions| == 2 then
        var x := FindEither(directions, "forward", "backward");
        var y := FindEither(directions, "left", "right");
        if x.Some? && y.Some? then x.value + "-" + y.value else ""
      else "";
    if output != "" then output else "stop"
  }

  /** One active key sends that key's name. */
  lemma MoveCarSingle(id: string)
    requires id != ""
    ensures MoveCar([id]) == id
  {
  }

  /** No key, three or more keys, or two on the same axis send `stop`. */
  lemma MoveCarStops(directions: seq<string>)
    requires || |directions| == 0 || |directions| >= 3
             || (|directions| == 2 && directions[0] in {"forward", "backward"} && directions[1] in {"forward", "backward"})
             || (|directions| == 2 && directions[0] in {"left", "right"} && directions[1] in {"left", "right"})
    ensures MoveCar(directions) == "stop"
  {
  }

  /** With two keys the order they were pressed in does not matter. */
  lemma MoveCarOrderIndependent(a: string, b: string)
    ensures MoveCar([a, b]) == MoveCar([b, a])
  {
    assert [a, b][1..] == [b];
    assert [b, a][1..] == [a];
    var verticalA, horizontalA := a == "forward" || a == "backward", a == "left" || a == "right";
    var verticalB, horizontalB := b == "forward" || b == "backward", b == "left" || b == "right";
    if verticalA && horizontalB {
      MoveCarDiagonal(a, b);
    } else if verticalB && horizontalA {
      MoveCarDiagonal(b, a);
    } else {
      assert !(verticalA && horizontalA) && !(verticalB && horizontalB);
      assert MoveCar([a, b]) == "stop" && MoveCar([b, a]) == "stop";
    }
  }

  /** One key from each axis sends `<forward|backward>-<left|right>`. */
  lemma MoveCarDiagonal(x: string, y: string)
    requires x == "forward" || x == "backward"
    requires y == "left" || y == "right"
    ensures MoveCar([x, y]) == x + "-" + y && MoveCar([y, x]) == x + "-" + y
    ensures x + "-" + y in S.ExactTokens
  {
    assert [x, y][1..] == [y];
    assert [y, x][1..] == [x];
    assert FindEither([x, y], "forward", "backward") == Some(x);
    assert FindEither([x, y], "left", "right") == Some(y);
    assert FindEither([y, x], "forward", "backward") == Some(x);
    assert FindEither([y, x], "left", "right") == Some(y);
    DiagonalToken(x, y);
  }

  /** The four diagonal words are gateway commands. */
  lemma DiagonalToken(x: string, y: string)
    requires x == "forward" || x == "backward"
    requires y == "left" || y == "right"
    ensures x + "-" + y != "" && x + "-" + y in S.ExactTokens
  {
    if x == "forward" {
      if y == "left" {
        assert x + "-" + y == "forward-left";
      } else {
        assert x + "-" + y == "forward-right";
      }
    } else {
      if y == "left" {
        assert x + "-" + y == "backward-left";
      } else {
        assert x + "-" + y == "backward-right";
      }
    }
  }

  /** The set of ids in a key list. */
  function Elements(s: seq<string>): (r: set<string>)
    ensures forall x :: x in r <==> x in s
  {
    if |s| == 0 then {} else {s[0]} + Elements(s[1..])
  }

  lemma {:induction false} DistinctElements(s: seq<string>)
    requires NoDup(s)
    ensures |Elements(s)| == |s|
    decreases |s|
  {
    if |s| > 0 {
      DistinctElements(s[1..]);
      assert forall k | 0 <= k < |s[1..]| :: s[1..][k] != s[0];
      assert s[0] !in Elements(s[1..]);
    }
  }

  /**
   Reference definition: the command a set of held pad keys stands for. One key
   drives its way; one key from each axis drives diagonally; anything else stops.
   */
  function Intended(keys: set<string>): S.Command {
    if |keys| == 1 then
      if "forward" in keys then S.Drive(V.Forward)
      else if "backward" in keys then S.Drive(V.Backward)
      else if "left" in keys then S.Drive(V.Left)
      else if "right" in keys then S.Drive(V.Right)
      else S.StopCar
    else if |keys| == 2 then
      if "forward" in keys && "left" in keys then S.Drive(V.ForwardLeft)
      else if "forward" in keys && "right" in keys then S.Drive(V.ForwardRight)
      else if "backward" in keys && "left" in keys then S.Drive(V.BackwardLeft)
      else if "backward" in keys && "right" in keys then S.Drive(V.BackwardRight)
      else S.StopCar
    else S.StopCar
  }

  /**
   Every message the pad sends is an exact token of the gateway, and the
   gateway reads it as the command the held keys stand for.
   */
  lemma MoveCarSendsIntent(active: seq<string>)
    requires NoDup(active)
    requires forall i | 0 <= i < |active| :: active[i] in PadIds
    ensures MoveCar(active) in S.ExactTokens
    ensures S.Parse(MoveCar(active)) == Intended(Elements(active))
  {
    if |active| == 2 {
      TwoKeysSendIntent(active);
    } else if |active| == 1 {
      OneKeySendsIntent(active);
    } else {
      OtherCountsStop(active);
    }
  }

  lemma TwoKeysSendIntent(active: seq<string>)
    requires NoDup(active) && |active| == 2
    requires forall i | 0 <= i < |active| :: active[i] in PadIds
    ensures MoveCar(active) in S.ExactTokens
    ensures S.Parse(MoveCar(active)) == Intended(Elements(active))
  {
    var a, b := active[0], active[1];
    assert a in PadIds && b in PadIds && a != b;
    assert active == [a, b];
    PairSendsIntent(a, b);
  }

  lemma OneKeySendsIntent(active: seq<string>)
    requires |active| == 1 && active[0] in PadIds
    ensures MoveCar(active) in S.ExactTokens
    ensures S.Parse(MoveCar(active)) == Intended(Elements(active))
  {
    var id := active[0];
    assert active == [id];
    MoveCarSingle(id);
    assert Elements(active) == {id};
    SingleKeyIntent(id);
  }

  /** A lone pad id is a gateway command that parses to the move it names. */
  lemma SingleKeyIntent(id: string)
    requires id in PadIds
    ensures id in S.ExactTokens && S.Parse(id) == Intended({id})
  {
    var keys := {id};
    assert |keys| == 1;
    if id == "forward" {
      assert Intended(keys) == S.Drive(V.Forward);
      S.ParseMoveToken(V.Forward);
    } else if id == "backward" {
      assert "forward" !in keys;
      assert Intended(keys) == S.Drive(V.Backward);
      S.ParseMoveToken(V.Backward);
    } else if id == "left" {
      assert "forward" !in keys && "backward" !in keys;
      assert Intended(keys) == S.Drive(V.Left);
      S.ParseMoveToken(V.Left);
    } else {
      assert id == "right" && "forward" !in keys && "backward" !in keys && "left" !in keys;
      assert Intended(keys) == S.Drive(V.Right);
      S.ParseMoveToken(V.Right);
    }
  }

  lemma OtherCountsStop(active: seq<string>)
    requires NoDup(active) && |active| != 1 && |active| != 2
    ensures MoveCar(active) == "stop" && MoveCar(active) in S.ExactTokens
    ensures S.Parse(MoveCar(active)) == Intended(Elements(active))
  {
    DistinctElements(active);
    MoveCarStops(active);
    ParsePadMessage("stop");
  }

  lemma PairSendsIntent(a: string, b: string)
    requires a != b && a in PadIds && b in PadIds
    ensures MoveCar([a, b]) in S.ExactTokens
    ensures S.Parse(MoveCar([a, b])) == Intended(Elements([a, b]))
  {
    PadAxis(a);
    PadAxis(b);
    if a in {"forward", "backward"} && b in {"left", "right"} {
      PairDiagonalIntent(a, b);
    } else if b in {"forward", "backward"} && a in {"left", "right"} {
      PairDiagonalIntent(b, a);
    } else {
      PairStopIntent(a, b);
    }
  }

  /** Each pad id lies on exactly one axis. */
  lemma PadAxis(x: string)
    requires x in PadIds
    ensures (x in {"forward", "backward"}) != (x in {"left", "right"})
  {
  }

  /** A vertical and a horizontal key, in either order, send the diagonal they stand for. */
  lemma PairDiagonalIntent(x: string, y: string)
    requires x == "forward" || x == "backward"
    requires y == "left" || y == "right"
    ensures MoveCar([x, y]) in S.ExactTokens && S.Parse(MoveCar([x, y])) == Intended(Elements([x, y]))
    ensures MoveCar([y, x]) in S.ExactTokens && S.Parse(MoveCar([y, x])) == Intended(Elements([y, x]))
  {
    PairElements(x, y);
    PairElements(y, x);
    assert {x, y} == {y, x};
    MoveCarDiagonal(x, y);
    DiagonalIntent(x, y);
  }

  /** Two different keys on one axis send stop, which is what they stand for. */
  lemma PairStopIntent(a: string, b: string)
    requires a != b && a in PadIds && b in PadIds
    requires (a in {"forward", "backward"}) == (b in {"forward", "backward"})
    ensures MoveCar([a, b]) == "stop" && "stop" in S.ExactTokens
    ensures S.Parse(MoveCar([a, b])) == Intended(Elements([a, b]))
  {
    PairElements(a, b);
    MoveCarStops([a, b]);
    ParsePadMessage("stop");
    SameAxisIntent(a, b);
  }

  /** The set of a two-key list is the pair of its keys. */
  lemma PairElements(a: string, b: string)
    ensures Elements([a, b]) == {a, b}
  {
    assert [a, b][1..] == [b];
  }

  lemma DiagonalIntent(x: string, y: string)
    requires x == "forward" || x == "backward"
    requires y == "left" || y == "right"
    ensures S.Parse(x + "-" + y) == Intended({x, y})
  {
    if x == "forward" {
      if y == "left" {
        assert x + "-" + y == "forward-left";
        ParsePadMessage("forward-left");
      } else {
        assert x + "-" + y == "forward-right";
        ParsePadMessage("forward-right");
      }
    } else {
      if y == "left" {
        assert x + "-" + y == "backward-left";
        ParsePadMessage("backward-left");
      } else {
        assert x + "-" + y == "backward-right";
        ParsePadMessage("backward-right");
      }
    }
  }

  lemma SameAxisIntent(a: string, b: string)
    requires a != b && a in PadIds && b in PadIds
    requires (a in {"forward", "backward"}) == (b in {"forward", "backward"})
    ensures Intended({a, b}) == S.StopCar
  {
    assert |{a, b}| == 2;
  }

  /** How the gateway reads a message of the pad. */
  lemma ParsePadMessage(msg: string)
    requires msg in S.ExactTokens && msg !in {"toggleFlash", "reset", "ping"}
    ensures S.Parse(msg) == if msg == "stop" then S.StopCar else S.Drive(MoveOfToken(msg))
  {
    S.ExactTokensHaveNoPrefix(msg);
    if msg != "stop" {
      S.ParseMoveToken(MoveOfToken(msg));
    }
  }

  /** The directional command a pad message names. */
  function MoveOfToken(msg: string): (mv: V.Move)
    requires msg in S.ExactTokens && msg !in {"toggleFlash", "reset", "ping", "stop"}
    ensures S.MoveToken(mv) == msg
  {
    if msg == "forward" then V.Forward
    else if msg == "backward" then V.Backward
    else if msg == "left" then V.Left
    else if msg == "right" then V.Right
    else if msg == "forward-left" then V.ForwardLeft
    else if msg == "forward-right" then V.ForwardRight
    else if msg == "backward-left" then V.BackwardLeft
    else V.BackwardRight
  }

  /** Removes the one occurrence of `id`, keeping the order of the rest (`Set.delete`). */
  function Remove(s: seq<string>, id: string): (r: seq<string>)
    ensures forall x :: x in r ==> x in s
    ensures NoDup(s) ==> NoDup(r) && forall x :: x in r <==> x in s && x != id
    ensures id !in s ==> r == s
  {
    if |s| == 0 then []
    else if s[0] == id then
      assert NoDup(s) ==> forall k | 0 <= k < |s[1..]| :: s[1..][k] != s[0];
      s[1..]
    else
      var rest := Remove(s[1..], id);
      assert NoDup(s) ==> s[0] !in rest by {
        if NoDup(s) {
          assert forall k | 0 <= k < |s[1..]| :: s[1..][k] != s[0];
        }
      }
      [s[0]] + rest
  }

  /** Deleting an id from a list that does not start with it keeps the head. */
  lemma RemoveKeepsHead(s: seq<string>, id: string)
    requires |s| > 0 && s[0] != id
    ensures Remove(s, id) == [s[0]] + Remove(s[1..], id)
  {
  }

  /** Deleting an id removes its first occurrence and keeps everything else in order. */
  lemma {:induction false} RemoveAt(s: seq<string>, id: string, k: nat)
    requires k < |s| && s[k] == id
    requires forall j | 0 <= j < k :: s[j] != id
    ensures Remove(s, id) == s[..k] + s[k + 1..]
  {
    if k == 0 {
      assert s[..0] + s[1..] == s[1..];
    } else {
      var tail := s[1..];
      assert tail[k - 1] == id && forall j | 0 <= j < k - 1 :: tail[j] != id by {
        forall j | 0 <= j < k - 1 ensures tail[j] != id {
          assert tail[j] == s[j + 1];
        }
      }
      RemoveKeepsHead(s, id);
      RemoveAt(tail, id, k - 1);
      assert [s[0]] + (tail[..k - 1] + tail[k..]) == s[..k] + s[k + 1..] by {
        assert tail[..k - 1] == s[1..k] && tail[k..] == s[k + 1..];
        assert [s[0]] + s[1..k] == s[..k];
      }
    }
  }

  /**
   `startAction`: a key that already has a timer is ignored; otherwise it joins
   the active keys and the new command is sent.
   */
  function StartAction(p: Pad, id: string): (r: (Pad, Option<string>))
    ensures id in p.timers ==> r == (p, None)
    ensures id !in p.timers ==> r.0.active == p.active + [id] && r.0.timers == p.timers + {id}
    ensures id !in p.timers ==> r.1 == Some(MoveCar(r.0.active))
    ensures InSync(p) ==> InSync(r.0)
  {
    if id in p.timers then (p, None)
    else
      var q := Pad(p.active + [id], p.timers + {id});
      (q, Some(MoveCar(q.active)))
  }

  /**
   `stopAction`: a key without a timer is ignored; otherwise it leaves the
   active keys and the new command is sent.
   */
  function StopAction(p: Pad, id: string): (r: (Pad, Option<string>))
    ensures id !in p.timers ==> r == (p, None)
    ensures forall x :: x in r.0.active ==> x in p.active
    ensures InSync(p) && id in p.timers ==> (forall x :: x in r.0.active <==> x in p.active && x != id)
    ensures id in p.timers ==> r.0.timers == p.timers - {id}
    ensures id in p.timers ==> r.1 == Some(MoveCar(r.0.active))
    ensures InSync(p) ==> InSync(r.0)
  {
    if id !in p.timers then (p, None)
    else
      var q := Pad(Remove(p.active, id), p.timers - {id});
      (q, Some(MoveCar(q.active)))
  }

  /** Pressing and releasing a key that was not held restores the pad. */
  lemma StartThenStopRestores(p: Pad, id: string)
    requires InSync(p) && id !in p.timers
    ensures StopAction(StartAction(p, id).0, id).0 == p
  {
    RemoveLast(p.active, id);
  }

  lemma {:induction false} RemoveLast(s: seq<string>, id: string)
    requires id !in s
    ensures Remove(s + [id], id) == s
    decreases |s|
  {
    if |s| > 0 {
      assert (s + [id])[1..] == s[1..] + [id];
      RemoveLast(s[1..], id);
    }
  }

  /** Starting from the empty pad, keyboard, mouse and touch events keep the pad in sync. */
  function Events(p: Pad, events: seq<(bool, string)>): (r: Pad)
    requires InSync(p)
    ensures InSync(r)
    decreases |events|
  {
    if |events| == 0 then p
    else
      var (down, id) := events[0];
      Events(if down then StartAction(p, id).0 else StopAction(p, id).0, events[1..])
  }

  /** Whatever the events, the pad's next message is a gateway token when only pad ids were pressed. */
  lemma {:induction false} PadMessagesAreTokens(p: Pad, events: seq<(bool, string)>)
    requires InSync(p) && p.timers <= PadIds
    requires forall i | 0 <= i < |events| :: events[i].1 in PadIds
    ensures Events(p, events).timers <= PadIds
    ensures MoveCar(Events(p, events).active) in S.ExactTokens
    decreases |events|
  {
    if |events| == 0 {
      MoveCarSendsIntent(p.active);
    } else {
      var (down, id) := events[0];
      var q := if down then StartAction(p, id).0 else StopAction(p, id).0;
      PadMessagesAreTokens(q, events[1..]);
    }
  }

  // ---------------------------------------------------------------------------
  // Signal indicator
  // ---------------------------------------------------------------------------

  datatype Signal = Hidden | Excellent | Good | Weak | Poor

  /**
   `updateWiFiIndicator`: `rssi` is the parsed magnitude, None for NaN; NaN and
   0 are falsy and hide the indicator.
   */
  function WifiIndicator(rssi: Option<int>): (s: Signal)
    ensures s == Hidden <==> rssi.None? || rssi.value == 0
    ensures s == Excellent <==> rssi.Some? && rssi.value != 0 && rssi.value <= 55
    ensures s == Good <==> rssi.Some? && 55 < rssi.value <= 75
    ensures s == Weak <==> rssi.Some? && 75 < rssi.value <= 85
    ensures s == Poor <==> rssi.Some? && 85 < rssi.value
  {
    if rssi.None? || rssi.value == 0 then Hidden
    else if rssi.value <= 55 then Excellent
    else if rssi.value <= 75 then Good
    else if rssi.value <= 85 then Weak
    else Poor
  }

  function Rank(s: Signal): nat {
    match s
    case Hidden => 0
    case Excellent => 1
    case Good => 2
    case Weak => 3
    case Poor => 4
  }

  /** A weaker signal (a larger magnitude) never shows a better class. */
  lemma WifiIndicatorMonotonic(a: int, b: int)
    requires 0 < a <= b
    ensures Rank(WifiIndicator(Some(a))) <= Rank(WifiIndicator(Some(b)))
  {
  }

  // ---------------------------------------------------------------------------
  // Replies from the gateway
  // ---------------------------------------------------------------------------

  /** What `ws.onmessage` does with a reply. */
  datatype Update =
    | Pong(rssi: Option<int>)             // heartbeat answered; indicator updated
    | Flash(on: Option<bool>)             // None: neither ON nor OFF
    | FrameSelect(value: Option<string>)  // the frame-size selector's new value
    | WifiMode(station: bool)
    | Ignored

  function StartsWith(s: string, p: string): bool {
    p <= s
  }

  /**
   `ws.onmessage`: the pong is handled first; the other three prefixes are
   compared one after another, and no message carries two of them.
   */
  function Decode(msg: string): Update {
    if StartsWith(msg, "pong-") then Pong(ParseInt(SecondDashField(msg)))
    else if StartsWith(msg, "Flash-") then
      var state := SecondDashField(msg);
      Flash(if state == Some("ON") then Some(true) else if state == Some("OFF") then Some(false) else None)
    else if StartsWith(msg, "FRAMESIZE-") then FrameSelect(SecondDashField(msg))
    else if StartsWith(msg, "WIFI-") then WifiMode(SecondDashField(msg) == Some("1"))
    else Ignored
  }

  /** The pong reply decodes to the magnitude of the RSSI the gateway measured. */
  lemma DecodePong(rssi: int, flashOn: bool)
    ensures Decode(S.PongReply(rssi, flashOn)) == Pong(Some(Abs(rssi)))
  {
    var msg := S.PongReply(rssi, flashOn);
    S.PongReplyFields(rssi, flashOn);
    assert "pong-" <= msg;
    SecondDashFieldOf("pong", NatToString(Abs(rssi)), Some(S.OnOff(flashOn)));
    assert msg == "pong" + "-" + NatToString(Abs(rssi)) + "-" + S.OnOff(flashOn);
    ParseIntRoundTrip(Abs(rssi));
  }

  /** A heartbeat answered by the gateway shows the class of the reported signal. */
  lemma PongShowsSignal(rssi: i8, flashOn: bool)
    requires rssi != 0
    ensures
      var u := Decode(S.PongReply(rssi, flashOn));
      u.Pong? && WifiIndicator(u.rssi) != Hidden && u.rssi == Some(Abs(rssi))
  {
    DecodePong(rssi, flashOn);
  }

  lemma DecodeFlash(on: bool)
    ensures Decode(S.FlashReply(on)) == Flash(Some(on))
  {
    var msg := S.FlashReply(on);
    var state := if on then "ON" else "OFF";
    assert msg == "Flash" + "-" + state;
    SecondDashFieldOf("Flash", state, None);
    S.NotPrefixAt("pong-", msg, 0);
  }

  lemma DecodeWifi(connected: bool)
    ensures Decode(S.WifiReply(connected)) == WifiMode(connected)
  {
    var msg := S.WifiReply(connected);
    var digit := if connected then "1" else "0";
    assert msg == "WIFI" + "-" + digit;
    SecondDashFieldOf("WIFI", digit, None);
    S.NotPrefixAt("pong-", msg, 0);
    S.NotPrefixAt("Flash-", msg, 0);
    S.NotPrefixAt("FRAMESIZE-", msg, 1);
  }

  /** No frame-size name contains a dash. */
  lemma FrameSizeNameHasNoDash(size: FrameSize)
    ensures '-' !in FrameSizeToString(size)
  {
  }

  /** The connect greeting's frame size selects that size's name in the client. */
  lemma DecodeFrameSize(size: FrameSize)
    ensures Decode(S.FrameReply(size)) == FrameSelect(Some(FrameSizeToString(size)))
  {
    FrameSizeNameHasNoDash(size);
    DecodeFrameReplyOf(FrameSizeToString(size));
  }

  /** A `FRAMESIZE-` reply whose name has no dash decodes to that name. */
  lemma DecodeFrameReplyOf(name: string)
    requires '-' !in name
    ensures Decode("FRAMESIZE-" + name) == FrameSelect(Some(name))
  {
    var msg := "FRAMESIZE-" + name;
    assert msg == "FRAMESIZE" + "-" + name;
    SecondDashFieldOf("FRAMESIZE", name, None);
    S.NotPrefixAt("pong-", msg, 0);
    S.NotPrefixAt("Flash-", msg, 1);
    assert StartsWith(msg, "FRAMESIZE-");
  }

  /** `frameSize_<value>`, sent when the selector changes. */
  function FrameSizeMessage(value: string): string {
    S.FramePrefix + value
  }

  /**
   The size reported on connect, sent back unchanged from the selector, is the
   size the gateway hands to the sensor.
   */
  lemma FrameSelectionRoundTrip(car: V.Car, size: FrameSize, env: S.Env)
    requires size != Invalid && env.sensor.Some?
    ensures
      var u := Decode(S.FrameReply(size));
      && u.FrameSelect? && u.value.Some?
      && S.HandleCarCommand(car, FrameSizeMessage(u.value.value), env).framesize == Some(size)
  {
    DecodeFrameSize(size);
    S.FrameSizeSelectable(car, size, env);
  }

  /** The lamp button, the heartbeat and the WiFi-mode button send exact gateway tokens. */
  lemma FixedMessagesRecognised()
    ensures S.Parse("toggleFlash") == S.ToggleFlash
    ensures S.Parse("ping") == S.Ping
    ensures S.Parse("reset") == S.ResetSettings
  {
    S.ExactTokensHaveNoPrefix("toggleFlash");
    S.ExactTokensHaveNoPrefix("ping");
    S.ExactTokensHaveNoPrefix("reset");
  }

  // ---------------------------------------------------------------------------
  // Camera drag
  // ---------------------------------------------------------------------------

  /** The drag position, each axis in [-100, 100]. */
  datatype Drag = Drag(x: int, y: int)

  predicate InRange(d: Drag) {
    -100 <= d.x <= 100 && -100 <= d.y <= 100
  }

  /**
   `handleCameraMove`: adds the mouse movement, already scaled and rounded
   to whole units, and clamps each axis (the vertical axis is inverted).
   */
  function CameraMove(d: Drag, dx: int, dy: int): (r: Drag)
    ensures InRange(r)
    ensures -100 <= d.x + dx <= 100 ==> r.x == d.x + dx
    ensures -100 <= d.y - dy <= 100 ==> r.y == d.y - dy
    ensures d.x + dx > 100 ==> r.x == 100
    ensures d.x + dx < -100 ==> r.x == -100
    ensures d.y - dy > 100 ==> r.y == 100
    ensures d.y - dy < -100 ==> r.y == -100
  {
    Drag(Constrain(d.x + dx, -100, 100), Constrain(d.y - dy, -100, 100))
  }

  /** The reset button's position. */
  const Centre: Drag := Drag(0, 0)

  /** `cameraDrag_<x>_<y>`. */
  function DragMessage(d: Drag): string {
    S.CommandText(S.CameraDrag(Some((d.x, d.y))))
  }

  /**
   Every drag message parses back to its coordinates, and pans the camera to
   the angle of x: the centre to 90 degrees, the two ends to 0 and 180.
   */
  lemma DragMessageRoundTrip(car: V.Car, d: Drag, env: S.Env)
    ensures S.Parse(DragMessage(d)) == S.CameraDrag(Some((d.x, d.y)))
    ensures S.HandleCarCommand(car, DragMessage(d), env).car.targetAngle == V.CameraAngle(d.x)
    ensures d == Centre ==> V.CameraAngle(d.x) == 90
  {
    S.ParseCommandText(S.CameraDrag(Some((d.x, d.y))));
  }

  /** Dragging further right never pans the camera further left. */
  lemma DragIsMonotonic(d: Drag, dx1: int, dx2: int, dy: int)
    requires dx1 <= dx2
    ensures V.CameraAngle(CameraMove(d, dx1, dy).x) <= V.CameraAngle(CameraMove(d, dx2, dy).x)
  {
    V.CameraAngleMonotonic(CameraMove(d, dx1, dy).x, CameraMove(d, dx2, dy).x);
  }
}

=== FILE: motor.dfy ===
/**
 The ramp-limited drive motor (`Motor`): a direction and a target speed are set
 at once, and the speed actually driven moves toward the target by at most one
 ramp step per eligible tick. The clock reading is passed to `Tick`, and the two
 PWM channel writes of a tick are returned instead of performed.
 */
module Motors {
  import opened Bounded
  import opened Utils

  datatype Direction = Stopped | Forward | Backward

  datatype Motor = Motor(
    minPwm: u8,
    current: u8,
    target: u8,
    direction: Direction,
    accelStep: u8,
    updateInterval: u16,
    lastUpdate: u64)

  /** The duty values written to PWM channel 1 and channel 2. */
  datatype Pwm = Pwm(channel1: u8, channel2: u8)

  /** A motor after a tick, and the channel writes that tick performed, if any. */
  datatype MotorTick = MotorTick(motor: Motor, write: Option<Pwm>)

  const MaxSpeed: u8 := 255
  const DefaultAccelStep: u8 := 5
  const DefaultUpdateInterval: u16 := 30

  /** A stopped motor drives nothing and aims at nothing. */
  predicate Valid(m: Motor) {
    m.direction == Stopped ==> m.current == 0 && m.target == 0
  }

  /** The constructor's state: stopped, no floor, step 5 every 30 ms. */
  function NewMotor(): (m: Motor)
    ensures Valid(m) && m.direction == Stopped
    ensures m.minPwm == 0 && m.accelStep == DefaultAccelStep && m.updateInterval == DefaultUpdateInterval
    ensures m.lastUpdate == 0
  {
    Motor(0, 0, 0, Stopped, DefaultAccelStep, DefaultUpdateInterval, 0)
  }

  /** `setMinPwm`: the floor a motor jumps to when it starts from rest. */
  function SetMinPwm(m: Motor, minPwm: u8): (r: Motor)
    ensures r.minPwm == minPwm
    ensures r == m.(minPwm := r.minPwm)
    ensures Valid(m) ==> Valid(r)
  {
    m.(minPwm := Constrain(minPwm, 0, 255))
  }

  /** `setRamp`: the step is kept within [1, 50] and the interval within [5, 100] ms. */
  function SetRamp(m: Motor, accelStep: u8, updateInterval: u16): (r: Motor)
    ensures 1 <= r.accelStep <= 50 && 5 <= r.updateInterval <= 100
    ensures 1 <= accelStep <= 50 ==> r.accelStep == accelStep
    ensures 5 <= updateInterval <= 100 ==> r.updateInterval == updateInterval
    ensures accelStep < 1 ==> r.accelStep == 1
    ensures accelStep > 50 ==> r.accelStep == 50
    ensures updateInterval < 5 ==> r.updateInterval == 5
    ensures updateInterval > 100 ==> r.updateInterval == 100
    ensures r == m.(accelStep := r.accelStep, updateInterval := r.updateInterval)
    ensures Valid(m) ==> Valid(r)
  {
    m.(accelStep := Constrain(accelStep, 1, 50), updateInterval := Constrain(updateInterval, 5, 100))
  }

  /** The target a requested speed turns into: never below the floor. */
  function TargetFor(m: Motor, speed: u8): (t: u8)
    ensures m.minPwm <= t
    ensures m.minPwm <= speed ==> t == speed
    ensures speed < m.minPwm ==> t == m.minPwm
  {
    Constrain(speed, m.minPwm, MaxSpeed)
  }

  /** `moveForward`: sets direction and target; the driven speed is left to `Tick`. */
  function MoveForward(m: Motor, speed: u8): (r: Motor)
    ensures r.direction == Forward && r.target == TargetFor(m, speed)
    ensures r.current == m.current
    ensures r == m.(direction := Forward, target := r.target)
    ensures Valid(r)
  {
    m.(direction := Forward, target := Constrain(speed, m.minPwm, MaxSpeed))
  }

  /** `moveBackward`: as `MoveForward`, in the other direction. */
  function MoveBackward(m: Motor, speed: u8): (r: Motor)
    ensures r.direction == Backward && r.target == TargetFor(m, speed)
    ensures r.current == m.current
    ensures r == m.(direction := Backward, target := r.target)
    ensures Valid(r)
  {
    m.(direction := Backward, target := Constrain(speed, m.minPwm, MaxSpeed))
  }

  /** `stop`: an immediate, unramped halt. */
  function Stop(m: Motor): (r: Motor)
    ensures r.direction == Stopped && r.current == 0 && r.target == 0
    ensures r == m.(direction := Stopped, current := 0, target := 0)
    ensures Valid(r)
  {
    m.(direction := Stopped, target := 0, current := 0)
  }

  lemma StopIsIdempotent(m: Motor)
    ensures Stop(Stop(m)) == Stop(m)
    ensures forall now: u64 :: Tick(Stop(m), now).motor.current == 0
  {
  }

  // ---------------------------------------------------------------------------
  // The ramp
  // ---------------------------------------------------------------------------

  /**
   `to` lies between `from` and `target` and is either the target or exactly
   one step away from `from`.
   */
  predicate RampedToward(from: int, target: int, step: int, to: int) {
    && (from <= target ==> from <= to <= target)
    && (target <= from ==> target <= to <= from)
    && (to == target || Abs(to - from) == step)
    && Abs(to - from) <= step
  }

  /** One ramp step toward the target, saturating at the target. */
  function RampToward(current: u8, target: u8, step: u8): (r: u8)
    ensures RampedToward(current, target, step, r)
    ensures Abs(r - current) <= step
  {
    if current < target then Min(current + step, target)
    else if current > target then Max(current - step, target)
    else current
  }

  /**
   The ramp step as the source writes it: `std::min<uint8_t>` and
   `std::max<uint8_t>` convert the int sum and difference to eight bits first.
   */
  function RampTowardAsWritten(current: u8, target: u8, step: u8): u8
  {
    if current < target then Min(ToU8(current + step), target)
    else if current > target then Max(ToU8(current - step), target)
    else current
  }

  /** Without an eight-bit overflow the two ramps agree. */
  lemma RampAsWrittenAgrees(current: u8, target: u8, step: u8)
    requires current < target ==> current + step <= 255
    requires current > target ==> current >= step
    ensures RampTowardAsWritten(current, target, step) == RampToward(current, target, step)
  {
  }

  /** With floor 201 the ramp reaches 251 and the next step wraps to 0; near zero a step down wraps up to 254. */
  lemma RampWrapCounterexample()
    ensures RampTowardAsWritten(251, 255, 5) == 0 && RampToward(251, 255, 5) == 255
    ensures RampTowardAsWritten(3, 0, 5) == 254 && RampToward(3, 0, 5) == 0
  {
  }

  // ---------------------------------------------------------------------------
  // Tick
  // ---------------------------------------------------------------------------

  /** A tick does something only once `updateInterval` ms have passed. */
  predicate Eligible(m: Motor, now: u64) {
    ElapsedSince(now, m.lastUpdate) >= m.updateInterval
  }

  /** The speed the ramp starts from: the floor when leaving rest toward a non-zero target. */
  function StartSpeed(m: Motor): u8 {
    if m.current == 0 && m.target > 0 then m.minPwm else m.current
  }

  /** The channel writes for a driven speed: only the channel of the direction carries it. */
  function Output(direction: Direction, speed: u8): (p: Pwm)
    requires direction != Stopped
    ensures direction == Forward ==> p.channel1 == speed && p.channel2 == 0
    ensures direction == Backward ==> p.channel1 == 0 && p.channel2 == speed
  {
    if direction == Forward then Pwm(speed, 0) else Pwm(0, speed)
  }

  /** A driven motor never powers both channels: one carries the whole speed and the other is 0. */
  lemma OutputDrivesOneChannel(direction: Direction, speed: u8)
    requires direction != Stopped
    ensures var p := Output(direction, speed);
      && (p.channel1 == 0 || p.channel2 == 0)
      && p.channel1 + p.channel2 == speed
  {
  }

  /** `tick`, with the timestamp kept in full (see the findings for the source's width). */
  function Tick(m: Motor, now: u64): (r: MotorTick)
    ensures !Eligible(m, now) ==> r == MotorTick(m, None)
    ensures Eligible(m, now) ==> r.motor.lastUpdate == now && r.write.Some?
    ensures Eligible(m, now) && m.direction == Stopped ==> r.motor.current == 0 && r.write == Some(Pwm(0, 0))
    ensures Eligible(m, now) && m.direction != Stopped ==>
              && RampedToward(StartSpeed(m), m.target, m.accelStep, r.motor.current)
              && r.write == Some(Output(m.direction, r.motor.current))
    ensures r.motor == m.(current := r.motor.current, lastUpdate := r.motor.lastUpdate)
    ensures Valid(m) ==> Valid(r.motor)
  {
    if ElapsedSince(now, m.lastUpdate) < m.updateInterval then MotorTick(m, None)
    else if m.direction == Stopped then
      MotorTick(m.(lastUpdate := now, current := 0), Some(Pwm(0, 0)))
    else
      var speed := RampToward(StartSpeed(m), m.target, m.accelStep);
      MotorTick(m.(lastUpdate := now, current := speed), Some(Output(m.direction, speed)))
  }

  /**
   Leaving rest toward a target at or above the floor, the first eligible tick
   jumps to the floor and ramps once: it drives min(floor + step, target).
   */
  lemma FirstTickFromRest(m: Motor, now: u64)
    requires m.direction != Stopped && Eligible(m, now)
    requires m.current == 0 && 0 < m.target && m.minPwm <= m.target
    ensures Tick(m, now).motor.current == Min(m.minPwm + m.accelStep, m.target)
    ensures Tick(m, now).write == Some(Output(m.direction, Min(m.minPwm + m.accelStep, m.target)))
  {
    assert StartSpeed(m) == m.minPwm;
  }

  /**
   `tick` as the source writes it: `_lastUpdate` is an `unsigned long`, 32 bits
   wide on the ESP32, and the ramp step wraps at eight bits.
   */
  function TickAsWritten(m: Motor, now: u64): MotorTick
  {
    if ElapsedSince(now, m.lastUpdate) < m.updateInterval then MotorTick(m, None)
    else if m.direction == Stopped then
      MotorTick(m.(lastUpdate := now % U32_MODULUS, current := 0), Some(Pwm(0, 0)))
    else
      var speed := RampTowardAsWritten(StartSpeed(m), m.target, m.accelStep);
      MotorTick(m.(lastUpdate := now % U32_MODULUS, current := speed), Some(Output(m.direction, speed)))
  }

  /** Before 2^32 ms of uptime and away from an eight-bit overflow, both ticks agree. */
  lemma TickAsWrittenAgrees(m: Motor, now: u64)
    requires now < U32_MODULUS
    requires StartSpeed(m) < m.target ==> StartSpeed(m) + m.accelStep <= 255
    requires StartSpeed(m) > m.target ==> StartSpeed(m) >= m.accelStep
    ensures TickAsWritten(m, now) == Tick(m, now)
  {
    RampAsWrittenAgrees(StartSpeed(m), m.target, m.accelStep);
  }

  /**
   Floor 201, step 5, full speed ahead: the driven speed climbs 206, 211, ...,
   251, and the eleventh tick writes 0 although the target is still 255.
   */
  lemma WrapCounterexample()
    ensures
      var m0 := MoveForward(SetMinPwm(NewMotor(), 201), 255);
      var m10 := TicksAsWritten(m0, 30, 10);
      && m10.current == 251 && m10.target == 255 && m10.direction == Forward
      && TickAsWritten(m10, 330).write == Some(Pwm(0, 0))
      && Tick(m10, 330).write == Some(Pwm(255, 0))
  {
    var m0 := MoveForward(SetMinPwm(NewMotor(), 201), 255);
    var m1 := Motor(201, 206, 255, Forward, 5, 30, 30);
    assert TickAsWritten(m0, 30).motor == m1;
    assert TicksAsWritten(m0, 30, 10) == TicksAsWritten(m1, 60, 9);
    ClimbAsWritten(206, 30, 9);
    WrapStep();
  }

  /** The step from 251: the as-written ramp wraps to 0, the saturating one reaches 255. */
  lemma WrapStep()
    ensures var m := Motor(201, 251, 255, Forward, 5, 30, 300);
      && TickAsWritten(m, 330).write == Some(Pwm(0, 0))
      && Tick(m, 330).write == Some(Pwm(255, 0))
  {
    RampWrapCounterexample();
  }

  /** Above the floor of 201 the as-written ramp climbs by 5 per tick while it stays at or below 251. */
  lemma {:induction false} ClimbAsWritten(c: u8, t: u64, k: nat)
    requires 201 <= c && c + 5 * k <= 251
    requires t + 30 * k + 30 < U32_MODULUS
    ensures TicksAsWritten(Motor(201, c, 255, Forward, 5, 30, t), t + 30, k)
            == Motor(201, c + 5 * k, 255, Forward, 5, 30, t + 30 * k)
    decreases k
  {
    if k > 0 {
      var m := Motor(201, c, 255, Forward, 5, 30, t);
      assert TickAsWritten(m, t + 30).motor == Motor(201, c + 5, 255, Forward, 5, 30, t + 30);
      ClimbAsWritten(c + 5, t + 30, k - 1);
    }
  }

  /** `k` ticks of the as-written motor, one every `updateInterval` ms from `now`. */
  function TicksAsWritten(m: Motor, now: u64, k: nat): Motor
    requires now + k * IntervalBound < U64_MODULUS
    decreases k
  {
    if k == 0 then m
    else TicksAsWritten(TickAsWritten(m, now).motor, now + m.updateInterval, k - 1)
  }

  /**
   After 2^32 ms the stored timestamp is truncated, so the next tick one
   millisecond later is eligible again and the ramp is no longer rate limited.
   */
  lemma TimestampTruncationCounterexample()
    ensures
      var m := MoveForward(SetMinPwm(NewMotor(), 200), 255);
      var t := U32_MODULUS + 100;
      && TickAsWritten(TickAsWritten(m, t).motor, t + 1).write.Some?
      && Tick(Tick(m, t).motor, t + 1).write.None?
  {
  }

  // ---------------------------------------------------------------------------
  // Convergence
  // ---------------------------------------------------------------------------

  /** No update interval reaches this bound, which keeps schedules of `k` ticks linear. */
  const IntervalBound: int := 0x1_0000

  lemma StepMultiple(k: nat, step: nat)
    requires k >= 1
    ensures k * step == (k - 1) * step + step
  {
  }

  /** `k` ticks, one every `updateInterval` ms starting at `now`. */
  function TickEvery(m: Motor, now: u64, k: nat): Motor
    requires now + k * IntervalBound < U64_MODULUS
    decreases k
  {
    if k == 0 then m
    else TickEvery(Tick(m, now).motor, now + m.updateInterval, k - 1)
  }

  /** Distance still to cover when the next tick starts. */
  function Gap(m: Motor): nat {
    Abs(m.target - StartSpeed(m))
  }

  /** An eligible tick of a running motor closes the gap by a full step or closes it. */
  lemma TickClosesGap(m: Motor, now: u64)
    requires m.direction != Stopped && Eligible(m, now)
    ensures var next := Tick(m, now).motor;
      && next.target == m.target && next.direction == m.direction
      && next.accelStep == m.accelStep && next.updateInterval == m.updateInterval
      && next.lastUpdate == now
      && StartSpeed(next) == next.current
      && (Gap(next) == 0 || Gap(next) + m.accelStep == Gap(m))
  {
  }

  /**
   Running ticks spaced `updateInterval` apart bring the driven speed to the
   target once `k` steps cover the gap.
   */
  lemma {:induction false} Converges(m: Motor, now: u64, k: nat)
    requires m.direction != Stopped && Eligible(m, now)
    requires k >= 1 && k * m.accelStep >= Gap(m)
    requires now + k * IntervalBound < U64_MODULUS
    ensures TickEvery(m, now, k).current == m.target
    decreases k
  {
    ConvergeStep(m, now, k);
    if k > 1 {
      Converges(Tick(m, now).motor, now + m.updateInterval, k - 1);
    }
  }

  /**
   One tick of a run toward the target: it either lands on the target (the last
   tick) or leaves a running, eligible motor with one step fewer to cover.
   */
  lemma ConvergeStep(m: Motor, now: u64, k: nat)
    requires m.direction != Stopped && Eligible(m, now)
    requires k >= 1 && k * m.accelStep >= Gap(m)
    requires now + k * IntervalBound < U64_MODULUS
    ensures var next, later := Tick(m, now).motor, now + m.updateInterval;
      && later + (k - 1) * IntervalBound < U64_MODULUS
      && TickEvery(m, now, k) == TickEvery(next, later, k - 1)
      && (k == 1 ==> next.current == m.target)
      && (k > 1 ==> next.direction != Stopped && Eligible(next, later) && (k - 1) * next.accelStep >= Gap(next))
  {
    TimeLeft(now, k, m.updateInterval);
    var next := Tick(m, now).motor;
    var later := now + m.updateInterval;
    TickClosesGap(m, now);
    StepsLeft(k, m.accelStep, Gap(m), Gap(next));
    EligibleAfterInterval(next, later);
  }

  /** With k steps covering a gap, k - 1 steps cover what one step leaves of it. */
  lemma StepsLeft(k: nat, step: nat, gap: nat, rest: nat)
    requires k >= 1 && k * step >= gap
    requires rest == 0 || rest + step == gap
    ensures (k - 1) * step >= rest
  {
    StepMultiple(k, step);
  }

  /** The time budget for k ticks leaves room for k - 1 more after one interval. */
  lemma TimeLeft(now: int, k: nat, interval: int)
    requires k >= 1 && 0 <= interval <= IntervalBound
    requires now + k * IntervalBound < U64_MODULUS
    ensures now + interval + (k - 1) * IntervalBound < U64_MODULUS
    ensures now + interval < U64_MODULUS
  {
    StepMultiple(k, IntervalBound);
  }

  /** A motor stamped at some time is eligible again one interval later. */
  lemma EligibleAfterInterval(m: Motor, later: u64)
    requires later == m.lastUpdate + m.updateInterval
    ensures Eligible(m, later)
  {
  }

  /** After `moveForward(speed)` the motor settles at the clamped speed within 255/step ticks. */
  lemma ForwardSettlesAtClampedSpeed(m: Motor, speed: u8, now: u64, k: nat)
    requires Eligible(m, now)
    requires k >= 1 && k * m.accelStep >= 255
    requires now + k * IntervalBound < U64_MODULUS
    ensures TickEvery(MoveForward(m, speed), now, k).current == Constrain(speed, m.minPwm, MaxSpeed)
  {
    Converges(MoveForward(m, speed), now, k);
  }
}

=== FILE: text.dfy ===
/**
 The text conventions the firmware and the browser agree on: decimal rendering
 of integers (printf's `%d`/`%u`, JavaScript's template literals), C's
 `sscanf("%d")`, JavaScript's `parseInt`, `split("-")[1]`, and C string
 termination.
 */
module Text {
  import opened Bounded

  // ---------------------------------------------------------------------------
  // Digits
  // ---------------------------------------------------------------------------

  predicate IsDigit(c: char) {
    '0' <= c <= '9'
  }

  predicate AllDigits(s: string) {
    forall i | 0 <= i < |s| :: IsDigit(s[i])
  }

  function DigitChar(d: nat): (c: char)
    requires d < 10
    ensures IsDigit(c) && c as int - '0' as int == d
  {
    ('0' as int + d) as char
  }

  /** Value of a string of decimal digits, most significant first. */
  function DigitsValue(s: string): nat
    requires AllDigits(s)
  {
    if |s| == 0 then 0 else DigitsValue(s[..|s| - 1]) * 10 + (s[|s| - 1] as int - '0' as int)
  }

  function Pow10(k: nat): (p: nat)
    ensures p >= 1
  {
    if k == 0 then 1 else 10 * Pow10(k - 1)
  }

  /**
   Shortest decimal rendering of a natural number, as `%u` and `%d` print it and
   as JavaScript prints an integral Number.
   */
  function NatToString(n: nat): (s: string)
    ensures |s| > 0 && AllDigits(s)
    ensures DigitsValue(s) == n
    ensures |s| > 1 ==> s[0] != '0'
    decreases n
  {
    if n < 10 then [DigitChar(n)]
    else
      var prefix := NatToString(n / 10);
      var s := prefix + [DigitChar(n % 10)];
      assert s[..|s| - 1] == prefix;
      s
  }

  /** A rendering has k digits or fewer exactly when the number is below 10^k. */
  lemma {:induction false} NatToStringLength(n: nat, k: nat)
    requires k >= 1
    ensures |NatToString(n)| <= k <==> n < Pow10(k)
    decreases n
  {
    if n >= 10 {
      if k == 1 {
        assert Pow10(1) == 10;
      } else {
        NatToStringLength(n / 10, k - 1);
      }
    } else {
      PowerAtLeastTen(k);
    }
  }

  lemma {:induction false} PowerAtLeastTen(k: nat)
    requires k >= 1
    ensures Pow10(k) >= 10
  {
    if k > 1 {
      PowerAtLeastTen(k - 1);
    }
  }

  /** `%d` of a signed integer. */
  function IntToString(n: int): (s: string)
    ensures |s| > 0
    ensures n >= 0 ==> s == NatToString(n)
    ensures n < 0 ==> s == "-" + NatToString(-n)
    ensures s[0] == '-' <==> n < 0
  {
    if n < 0 then "-" + NatToString(-n) else NatToString(n)
  }

  /** Length of the leading run of decimal digits. */
  function DigitRun(s: string): (k: nat)
    ensures k <= |s| && AllDigits(s[..k])
    ensures k < |s| ==> !IsDigit(s[k])
  {
    if |s| == 0 || !IsDigit(s[0]) then 0
    else
      var k := 1 + DigitRun(s[1..]);
      assert s[..k] == [s[0]] + s[1..][..k - 1];
      k
  }

  lemma {:induction false} DigitRunOfDigits(d: string, rest: string)
    requires AllDigits(d)
    requires rest == [] || !IsDigit(rest[0])
    ensures DigitRun(d + rest) == |d|
    decreases |d|
  {
    if |d| > 0 {
      assert (d + rest)[1..] == d[1..] + rest;
      DigitRunOfDigits(d[1..], rest);
    }
  }

  // ---------------------------------------------------------------------------
  // sscanf("%d")
  // ---------------------------------------------------------------------------

  /** C's `isspace` in the "C" locale. */
  predicate IsCSpace(c: char) {
    c == ' ' || c == '\t' || c == '\n' || c == '\r' || c == '\U{000B}' || c == '\U{000C}'
  }

  function DropCSpace(s: string): (t: string)
    ensures |t| <= |s| && t == s[|s| - |t|..]
    ensures |t| > 0 ==> !IsCSpace(t[0])
  {
    if |s| > 0 && IsCSpace(s[0]) then DropCSpace(s[1..]) else s
  }

  /** The longest run of decimal digits at the start of `u`, as a number. */
  function ScanUnsigned(u: string): (r: Option<(nat, string)>)
    ensures r.Some? ==> |r.value.1| < |u| && r.value.1 == u[|u| - |r.value.1|..]
  {
    var k := DigitRun(u);
    if k == 0 then None else Some((DigitsValue(u[..k]), u[k..]))
  }

  lemma {:induction false} ScanUnsignedRoundTrip(m: nat, rest: string)
    requires rest == [] || !IsDigit(rest[0])
    ensures ScanUnsigned(NatToString(m) + rest) == Some((m, rest))
  {
    var d := NatToString(m);
    DigitRunOfDigits(d, rest);
    assert (d + rest)[..|d|] == d;
    assert (d + rest)[|d|..] == rest;
  }

  /**
   One `%d` conversion: skips white space, takes an optional sign and the
   longest run of decimal digits, and fails unless there is at least one digit.
   On success it returns the value and the unread rest of the input.
   */
  function ScanInt(s: string): (r: Option<(int, string)>)
    ensures r.Some? ==> |r.value.1| < |s| && r.value.1 == s[|s| - |r.value.1|..]
  {
    var t := DropCSpace(s);
    if |t| > 0 && (t[0] == '-' || t[0] == '+') then
      match ScanUnsigned(t[1..])
      case None => None
      case Some((v, rest)) => Some((if t[0] == '-' then -(v as int) else v, rest))
    else
      match ScanUnsigned(t)
      case None => None
      case Some((v, rest)) => Some((v, rest))
  }

  /** Scanning the rendering of an integer gives that integer back. */
  lemma {:induction false} ScanIntRoundTrip(n: int, rest: string)
    requires rest == [] || !IsDigit(rest[0])
    ensures ScanInt(IntToString(n) + rest) == Some((n, rest))
  {
    if n < 0 {
      assert IntToString(n) + rest == "-" + NatToString(-n) + rest;
      ScanNegativeRoundTrip(n, rest);
    } else {
      ScanUnsignedRoundTrip(n, rest);
      ScanIntOfUnsigned(NatToString(n) + rest, n, rest);
    }
  }

  lemma {:induction false} ScanNegativeRoundTrip(n: int, rest: string)
    requires n < 0
    requires rest == [] || !IsDigit(rest[0])
    ensures ScanInt("-" + NatToString(-n) + rest) == Some((n, rest))
  {
    var s := "-" + NatToString(-n) + rest;
    assert s[1..] == NatToString(-n) + rest;
    ScanUnsignedRoundTrip(-n, rest);
    ScanIntOfSigned(s, -n, rest);
  }

  lemma ScanIntOfSigned(s: string, v: nat, rest: string)
    requires |s| > 0 && s[0] == '-'
    requires ScanUnsigned(s[1..]) == Some((v, rest))
    ensures ScanInt(s) == Some((-(v as int), rest))
  {
    assert !IsCSpace(s[0]);
    assert DropCSpace(s) == s;
  }

  lemma ScanIntOfUnsigned(s: string, v: nat, rest: string)
    requires |s| > 0 && IsDigit(s[0])
    requires ScanUnsigned(s) == Some((v, rest))
    ensures ScanInt(s) == Some((v, rest))
  {
    assert !IsCSpace(s[0]) && s[0] != '-' && s[0] != '+';
    assert DropCSpace(s) == s;
  }

  /**
   `sscanf(s, "%d_%d", &x, &y) == 2`: two conversions separated by a literal
   underscore; anything after the second number is ignored.
   */
  function ScanTwoInts(s: string): Option<(int, int)>
  {
    match ScanInt(s)
    case None => None
    case Some((x, rest)) =>
      if |rest| > 0 && rest[0] == '_' then
        match ScanInt(rest[1..])
        case None => None
        case Some((y, _)) => Some((x, y))
      else None
  }

  /** Two rendered integers joined by an underscore scan back to the pair. */
  lemma {:induction false} ScanTwoIntsRoundTrip(x: int, y: int)
    ensures ScanTwoInts(IntToString(x) + "_" + IntToString(y)) == Some((x, y))
  {
    var xs, ys := IntToString(x), IntToString(y);
    var tail := "_" + ys;
    assert xs + "_" + ys == xs + tail;
    ScanIntRoundTrip(x, tail);
    assert tail[1..] == ys + [];
    ScanIntRoundTrip(y, []);
    ScanTwoIntsOf(xs + tail, x, tail, y);
  }

  lemma ScanTwoIntsOf(s: string, x: int, tail: string, y: int)
    requires ScanInt(s) == Some((x, tail))
    requires |tail| > 0 && tail[0] == '_'
    requires ScanInt(tail[1..]).Some? && ScanInt(tail[1..]).value.0 == y
    ensures ScanTwoInts(s) == Some((x, y))
  {
  }

  // ---------------------------------------------------------------------------
  // JavaScript parseInt
  // ---------------------------------------------------------------------------

  /** JavaScript's white space and line terminators, which `parseInt` skips. */
  predicate IsJsSpace(c: char) {
    || c == '\t' || c == '\U{000B}' || c == '\U{000C}' || c == ' ' || c == '\U{00A0}'
    || c == '\U{FEFF}' || c == '\n' || c == '\r' || c == '\U{2028}' || c == '\U{2029}'
    || c == '\U{1680}' || ('\U{2000}' <= c <= '\U{200A}') || c == '\U{202F}'
    || c == '\U{205F}' || c == '\U{3000}'
  }

  function DropJsSpace(s: string): (t: string)
    ensures |t| <= |s|
    ensures |t| > 0 ==> !IsJsSpace(t[0])
    ensures |s| > 0 && !IsJsSpace(s[0]) ==> t == s
  {
    if |s| > 0 && IsJsSpace(s[0]) then DropJsSpace(s[1..]) else s
  }

  predicate IsHexDigit(c: char) {
    IsDigit(c) || 'a' <= c <= 'f' || 'A' <= c <= 'F'
  }

  function HexDigitValue(c: char): (v: nat)
    requires IsHexDigit(c)
    ensures v < 16
  {
    if IsDigit(c) then c as int - '0' as int
    else if 'a' <= c <= 'f' then c as int - 'a' as int + 10
    else c as int - 'A' as int + 10
  }

  function HexRun(s: string): (k: nat)
    ensures k <= |s|
    ensures forall i | 0 <= i < k :: IsHexDigit(s[i])
  {
    if |s| == 0 || !IsHexDigit(s[0]) then 0 else 1 + HexRun(s[1..])
  }

  function HexValue(s: string): nat
    requires forall i | 0 <= i < |s| :: IsHexDigit(s[i])
  {
    if |s| == 0 then 0 else HexValue(s[..|s| - 1]) * 16 + HexDigitValue(s[|s| - 1])
  }

  /**
   `parseInt(v)` with no radix. `v` is None for `undefined`, which is converted
   to the string "undefined"; a None result stands for NaN. Leading white space
   and a sign are skipped, a "0x"/"0X" prefix selects base 16, and the longest
   run of digits of the base is read.
   */
  function ParseInt(v: Option<string>): (r: Option<int>)
    ensures v.Some? && |v.value| > 0 && IsDigit(v.value[0]) && !(|v.value| > 1 && v.value[0] == '0' && (v.value[1] == 'x' || v.value[1] == 'X'))
            ==> r == Some(DigitsValue(v.value[..DigitRun(v.value)]))
    ensures v.None? ==> r.None?
    ensures v.Some? && |v.value| > 0 && !IsJsSpace(v.value[0]) && !IsDigit(v.value[0]) && v.value[0] != '-' && v.value[0] != '+'
            ==> r.None?
    ensures v.Some? && |v.value| == 0 ==> r.None?
  {
    var s := if v.None? then "undefined" else v.value;
    var t := DropJsSpace(s);
    var negative := |t| > 0 && t[0] == '-';
    var u := if |t| > 0 && (t[0] == '-' || t[0] == '+') then t[1..] else t;
    var magnitude :=
      if |u| >= 2 && u[0] == '0' && (u[1] == 'x' || u[1] == 'X') then
        var h := u[2..];
        var k := HexRun(h);
        if k == 0 then None else Some(HexValue(h[..k]))
      else
        var k := DigitRun(u);
        if k == 0 then None else Some(DigitsValue(u[..k]));
    match magnitude
    case None => None
    case Some(m) => Some(if negative then -(m as int) else m)
  }

  /** `parseInt` of the rendering of a natural number gives it back. */
  lemma ParseIntRoundTrip(n: nat)
    ensures ParseInt(Some(NatToString(n))) == Some(n)
  {
    var d := NatToString(n);
    DigitRunOfDigits(d, []);
    assert d + [] == d;
    assert d[..|d|] == d;
    if |d| > 1 {
      assert d[0] != '0';
    }
  }

  // ---------------------------------------------------------------------------
  // split("-")[1] and C strings
  // ---------------------------------------------------------------------------

  function IndexOf(s: string, c: char): (r: Option<nat>)
    ensures r.Some? ==> r.value < |s| && s[r.value] == c && c !in s[..r.value]
    ensures r.None? ==> c !in s
  {
    if |s| == 0 then None
    else if s[0] == c then Some(0)
    else match IndexOf(s[1..], c)
      case None => None
      case Some(i) =>
        assert s[..i + 1] == [s[0]] + s[1..][..i];
        Some(i + 1)
  }

  /**
   JavaScript's `s.split("-")[1]`: the text between the first and the second
   dash (or the end); None (`undefined`) when there is no dash.
   */
  function SecondDashField(s: string): (r: Option<string>)
    ensures r.Some? ==> '-' !in r.value
    ensures r.None? <==> '-' !in s
  {
    match IndexOf(s, '-')
    case None => None
    case Some(i) =>
      var rest := s[i + 1..];
      match IndexOf(rest, '-')
      case None => Some(rest)
      case Some(j) => Some(rest[..j])
  }

  /** The second field of `a-b-c` or `a-b` is `b` when `a` and `b` hold no dash. */
  lemma SecondDashFieldOf(a: string, b: string, tail: Option<string>)
    requires '-' !in a && '-' !in b
    ensures tail.Some? ==> SecondDashField(a + "-" + b + "-" + tail.value) == Some(b)
    ensures tail.None? ==> SecondDashField(a + "-" + b) == Some(b)
  {
    var s := if tail.Some? then a + "-" + b + "-" + tail.value else a + "-" + b;
    IndexOfAfter(a, '-', s[|a| + 1..]);
    assert s == a + "-" + s[|a| + 1..];
    if tail.Some? {
      assert s[|a| + 1..] == b + "-" + tail.value;
      IndexOfAfter(b, '-', tail.value);
      assert (b + "-" + tail.value)[..|b|] == b;
    } else {
      assert s[|a| + 1..] == b;
    }
  }

  /** The first `c` of `a + [c] + rest` is at `|a|` when `a` holds no `c`. */
  lemma {:induction false} IndexOfAfter(a: string, c: char, rest: string)
    requires c !in a
    ensures IndexOf(a + [c] + rest, c) == Some(|a|)
    decreases |a|
  {
    if |a| > 0 {
      assert (a + [c] + rest)[1..] == a[1..] + [c] + rest;
      IndexOfAfter(a[1..], c, rest);
    }
  }

  /** What a C function sees of a buffer: everything before the first NUL. */
  function CString(buffer: string): (s: string)
    ensures s <= buffer && '\0' !in s
    ensures |s| < |buffer| ==> buffer[|s|] == '\0'
  {
    match IndexOf(buffer, '\0')
    case None => buffer
    case Some(i) => buffer[..i]
  }

  /** A string without NUL is its own C string, also when a NUL and more bytes follow it. */
  lemma CStringOf(s: string, rest: string)
    requires '\0' !in s
    ensures CString(s) == s
    ensures CString(s + ['\0'] + rest) == s
  {
    IndexOfAfter(s, '\0', rest);
    assert (s + ['\0'] + rest)[..|s|] == s;
  }
}

=== FILE: utils.dfy ===
/**
 Helpers shared by the motor, vehicle and gateway code: the saturating
 elapsed-time function, the two-way camera frame-size name table, and the two
 signal-strength lookups over the access point's list of stations.
 */
module Utils {
  import opened Bounded

  // ---------------------------------------------------------------------------
  // Elapsed time
  // ---------------------------------------------------------------------------

  /**
   `elapsedSince(time)`: the unsigned difference `now - time` reinterpreted as a
   signed 64-bit value, with negative values replaced by zero. The clock reading
   `now` is passed in.
   */
  function ElapsedSince(now: u64, time: u64): (r: u64)
    ensures r < I64_LIMIT
    ensures time <= now && now - time < I64_LIMIT ==> r == now - time
    ensures now < time && time - now <= I64_LIMIT ==> r == 0
  {
    var delta := SubU64(now, time);
    var signed := if delta >= I64_LIMIT then delta - U64_MODULUS else delta;
    if signed < 0 then 0 else signed
  }

  // ---------------------------------------------------------------------------
  // Frame sizes
  // ---------------------------------------------------------------------------

  /** The camera driver's `framesize_t`: 22 named resolutions and the sentinel. */
  datatype FrameSize =
    | Fs96x96 | QQVGA | QCIF | HQVGA | Fs240x240 | QVGA | CIF | HVGA | VGA
    | SVGA | XGA | HD | SXGA | UXGA | FHD | PHD | P3MP | QXGA | QHD | WQXGA
    | PFHD | QSXGA
    | Invalid

  /** The 22 named sizes, in the driver's order. */
  const NamedSizes: seq<FrameSize> :=
    [Fs96x96, QQVGA, QCIF, HQVGA, Fs240x240, QVGA, CIF, HVGA, VGA, SVGA, XGA,
     HD, SXGA, UXGA, FHD, PHD, P3MP, QXGA, QHD, WQXGA, PFHD, QSXGA]

  /** Position of a named size in the driver's order. */
  function SizeIndex(size: FrameSize): (k: nat)
    requires size != Invalid
    ensures k < |NamedSizes| && NamedSizes[k] == size
  {
    match size
    case Fs96x96 => 0
    case QQVGA => 1
    case QCIF => 2
    case HQVGA => 3
    case Fs240x240 => 4
    case QVGA => 5
    case CIF => 6
    case HVGA => 7
    case VGA => 8
    case SVGA => 9
    case XGA => 10
    case HD => 11
    case SXGA => 12
    case UXGA => 13
    case FHD => 14
    case PHD => 15
    case P3MP => 16
    case QXGA => 17
    case QHD => 18
    case WQXGA => 19
    case PFHD => 20
    case QSXGA => 21
  }

  /** Name printed for anything that is not one of the named sizes. */
  const UnknownName: string := "UNKNOWN"

  /** `frameSizeToString`. */
  function FrameSizeToString(size: FrameSize): string
  {
    match size
    case Fs96x96 => "FRAMESIZE_96X96"
    case QQVGA => "FRAMESIZE_QQVGA"
    case QCIF => "FRAMESIZE_QCIF"
    case HQVGA => "FRAMESIZE_HQVGA"
    case Fs240x240 => "FRAMESIZE_240X240"
    case QVGA => "FRAMESIZE_QVGA"
    case CIF => "FRAMESIZE_CIF"
    case HVGA => "FRAMESIZE_HVGA"
    case VGA => "FRAMESIZE_VGA"
    case SVGA => "FRAMESIZE_SVGA"
    case XGA => "FRAMESIZE_XGA"
    case HD => "FRAMESIZE_HD"
    case SXGA => "FRAMESIZE_SXGA"
    case UXGA => "FRAMESIZE_UXGA"
    case FHD => "FRAMESIZE_FHD"
    case PHD => "FRAMESIZE_P_HD"
    case P3MP => "FRAMESIZE_P_3MP"
    case QXGA => "FRAMESIZE_QXGA"
    case QHD => "FRAMESIZE_QHD"
    case WQXGA => "FRAMESIZE_WQXGA"
    case PFHD => "FRAMESIZE_P_FHD"
    case QSXGA => "FRAMESIZE_QSXGA"
    case Invalid => UnknownName
  }

  /**
   `stringToFrameSize`: a null name (None) or any name outside the table maps
   to the sentinel; the names are compared one after the other as in the source.
   */
  function StringToFrameSize(name: Option<string>): FrameSize
  {
    if name.None? then Invalid
    else
      var n := name.value;
      if n == "FRAMESIZE_96X96" then Fs96x96
      else if n == "FRAMESIZE_QQVGA" then QQVGA
      else if n == "FRAMESIZE_QCIF" then QCIF
      else if n == "FRAMESIZE_HQVGA" then HQVGA
      else if n == "FRAMESIZE_240X240" then Fs240x240
      else if n == "FRAMESIZE_QVGA" then QVGA
      else if n == "FRAMESIZE_CIF" then CIF
      else if n == "FRAMESIZE_HVGA" then HVGA
      else if n == "FRAMESIZE_VGA" then VGA
      else if n == "FRAMESIZE_SVGA" then SVGA
      else if n == "FRAMESIZE_XGA" then XGA
      else if n == "FRAMESIZE_HD" then HD
      else if n == "FRAMESIZE_SXGA" then SXGA
      else if n == "FRAMESIZE_UXGA" then UXGA
      else if n == "FRAMESIZE_FHD" then FHD
      else if n == "FRAMESIZE_P_HD" then PHD
      else if n == "FRAMESIZE_P_3MP" then P3MP
      else if n == "FRAMESIZE_QXGA" then QXGA
      else if n == "FRAMESIZE_QHD" then QHD
      else if n == "FRAMESIZE_WQXGA" then WQXGA
      else if n == "FRAMESIZE_P_FHD" then PFHD
      else if n == "FRAMESIZE_QSXGA" then QSXGA
      else Invalid
  }

  /** Every table name is at least 12 characters long, so a shorter name is the sentinel. */
  lemma ShortNamesAreInvalid(name: string)
    requires |name| < 12
    ensures StringToFrameSize(Some(name)) == Invalid
  {
    forall size | size != Invalid
      ensures |FrameSizeToString(size)| >= 12
    {
    }
  }

  /** Every named size survives a trip through its name. */
  lemma FrameSizeRoundTrip(size: FrameSize)
    requires size != Invalid
    ensures StringToFrameSize(Some(FrameSizeToString(size))) == size
  {
    match size
    case Fs96x96 =>
    case QQVGA =>
    case QCIF =>
    case HQVGA =>
    case Fs240x240 =>
    case QVGA =>
    case CIF =>
    case HVGA =>
    case VGA =>
    case SVGA =>
    case XGA =>
    case HD =>
    case SXGA =>
    case UXGA =>
    case FHD =>
    case PHD =>
    case P3MP =>
    case QXGA =>
    case QHD =>
    case WQXGA =>
    case PFHD =>
    case QSXGA =>
  }

  /** Every name the parser accepts is the printed name of what it returns. */
  lemma StringToFrameSizeRoundTrip(name: Option<string>)
    requires StringToFrameSize(name) != Invalid
    ensures name == Some(FrameSizeToString(StringToFrameSize(name)))
  {
  }

  /** The printed names of two different named sizes differ, and none is "UNKNOWN". */
  lemma FrameSizeNamesDistinct(a: FrameSize, b: FrameSize)
    requires a != Invalid && b != Invalid
    ensures a != b ==> FrameSizeToString(a) != FrameSizeToString(b)
    ensures FrameSizeToString(a) != UnknownName
  {
    FrameSizeRoundTrip(a);
    FrameSizeRoundTrip(b);
    assert StringToFrameSize(Some(UnknownName)) == Invalid;
  }

  /** The null name, "UNKNOWN" and any name outside the table map to the sentinel. */
  lemma UnlistedNamesAreInvalid(name: string)
    requires forall i | 0 <= i < |NamedSizes| :: FrameSizeToString(NamedSizes[i]) != name
    ensures StringToFrameSize(Some(name)) == Invalid
    ensures StringToFrameSize(None) == Invalid
    ensures StringToFrameSize(Some(UnknownName)) == Invalid
  {
    var size := StringToFrameSize(Some(name));
    if size != Invalid {
      var k := SizeIndex(size);
      StringToFrameSizeRoundTrip(Some(name));
      assert false;
    }
    assert StringToFrameSize(Some(UnknownName)) == Invalid;
  }

  // ---------------------------------------------------------------------------
  // Signal strength of connected stations
  // ---------------------------------------------------------------------------

  type Mac = s: seq<u8> | |s| == 6 witness [0, 0, 0, 0, 0, 0]

  /** One entry of the access point's station list. */
  datatype Station = Station(mac: Mac, rssi: i8)

  /** `getClientRSSI`: the RSSI of the first connected station, 0 when none is. */
  function GetClientRSSI(stations: seq<Station>): (r: int)
    ensures |stations| == 0 ==> r == 0
    ensures |stations| > 0 ==> r == RSSIFor(stations, stations[0].mac)
  {
    if |stations| == 0 then 0 else stations[0].rssi
  }

  /** Reference definition: the RSSI of the first station whose MAC matches, or 0. */
  function RSSIFor(stations: seq<Station>, mac: Mac): int
  {
    if |stations| == 0 then 0
    else if stations[0].mac == mac then stations[0].rssi
    else RSSIFor(stations[1..], mac)
  }

  /**
   `getRSSIForClient`: scans the station list for the given MAC. `list` is None
   when fetching the list fails.
   */
  method GetRSSIForClient(list: Option<seq<Station>>, mac: Mac) returns (rssi: int)
    ensures list.None? ==> rssi == 0
    ensures list.Some? ==> rssi == RSSIFor(list.value, mac)
    ensures list.Some? && (forall i | 0 <= i < |list.value| :: list.value[i].mac != mac) ==> rssi == 0
    ensures list.Some? ==> forall i | 0 <= i < |list.value| && list.value[i].mac == mac
                              && (forall j | 0 <= j < i :: list.value[j].mac != mac)
                              :: rssi == list.value[i].rssi
  {
    if list.None? {
      return 0;
    }
    var stations := list.value;
    var i := 0;
    while i < |stations|
      invariant 0 <= i <= |stations|
      invariant forall j | 0 <= j < i :: stations[j].mac != mac
      invariant RSSIFor(stations[i..], mac) == RSSIFor(stations, mac)
    {
      if stations[i].mac == mac {
        FirstMatchIsRSSIFor(stations, mac, i);
        return stations[i].rssi;
      }
      assert stations[i..][1..] == stations[i + 1..];
      i := i + 1;
    }
    NoMatchIsZero(stations, mac);
    return 0;
  }

  /** The reference lookup returns the RSSI of the first matching station. */
  lemma {:induction false} FirstMatchIsRSSIFor(stations: seq<Station>, mac: Mac, i: nat)
    requires i < |stations| && stations[i].mac == mac
    requires forall j | 0 <= j < i :: stations[j].mac != mac
    ensures RSSIFor(stations, mac) == stations[i].rssi
    decreases i
  {
    if i > 0 {
      FirstMatchIsRSSIFor(stations[1..], mac, i - 1);
    }
  }

  /** The reference lookup returns 0 when no station matches. */
  lemma {:induction false} NoMatchIsZero(stations: seq<Station>, mac: Mac)
    requires forall j | 0 <= j < |stations| :: stations[j].mac != mac
    ensures RSSIFor(stations, mac) == 0
    decreases |stations|
  {
    if |stations| > 0 {
      NoMatchIsZero(stations[1..], mac);
    }
  }
}

=== FILE: vehicle.dfy ===
/**
 The vehicle controller (`Car`): two ramp-limited motors, the pan servo's
 interpolator, the lamp, and the 500 ms command watchdog. Every operation is a
 pure step over an immutable `Car`; the clock reading `now` is a parameter, and
 the servo and PWM writes of a tick are returned as data.
 */
module Vehicle {
  import opened Bounded
  import opened Utils
  import M = Motors

  const MotorMax: u8 := 255
  /** `motorMax / 1.5`: the double 170.0, converted back to `uint8_t`. */
  const DiagonalSpeed: u8 := 170
  /** The floor both motors get in `initMotors`. */
  const MinPwm: u8 := 200
  const AutostopTimeoutMs: int := 500
  const ServoStepDelayMs: int := 40
  const ServoStep: int := 2
  const CenterAngle: int := 90

  datatype Car = Car(
    flashOn: bool,
    currentAngle: int,
    targetAngle: int,
    servoLastUpdate: u64,
    lastCommandTime: u64,
    motorStopped: bool,
    left: M.Motor,
    right: M.Motor)

  /** The eight directional commands. */
  datatype Move =
    | Forward | Backward | Left | Right
    | ForwardLeft | ForwardRight | BackwardLeft | BackwardRight

  /** What one wheel is asked to do: a direction and a requested speed. */
  datatype Wheel = Wheel(direction: M.Direction, speed: u8)

  /**
   The controller's invariant: both motors valid, both angles within the
   servo's range, and `motorStopped` set exactly when both motors are stopped.
   */
  predicate Valid(c: Car) {
    && M.Valid(c.left) && M.Valid(c.right)
    && 0 <= c.currentAngle <= 180 && 0 <= c.targetAngle <= 180
    && (c.motorStopped <==> c.left.direction == M.Stopped && c.right.direction == M.Stopped)
  }

  /** The motor settings `init` establishes, which no later operation changes. */
  predicate Configured(c: Car) {
    && c.left.minPwm == MinPwm && c.right.minPwm == MinPwm
    && c.left.accelStep == M.DefaultAccelStep && c.right.accelStep == M.DefaultAccelStep
    && c.left.updateInterval == M.DefaultUpdateInterval && c.right.updateInterval == M.DefaultUpdateInterval
  }

  /** The constructor's state: lamp off, camera centred, motors stopped. */
  function NewCar(): (c: Car)
    ensures Valid(c)
    ensures !c.flashOn && c.currentAngle == CenterAngle && c.targetAngle == CenterAngle
    ensures c.motorStopped && c.lastCommandTime == 0 && c.servoLastUpdate == 0
  {
    Car(false, CenterAngle, CenterAngle, 0, 0, true, M.NewMotor(), M.NewMotor())
  }

  /**
   The constructor followed by `init`: both motors get the floor of 200 and are
   stopped, and the watchdog clock starts at `now`. Camera start-up is not part
   of this model.
   */
  function Boot(now: u64): (c: Car)
    ensures Valid(c) && Configured(c)
    ensures !c.flashOn && c.currentAngle == CenterAngle && c.targetAngle == CenterAngle
    ensures c.motorStopped && c.lastCommandTime == now
    ensures c.left.current == 0 && c.right.current == 0
  {
    var c := NewCar();
    var left := M.Stop(M.SetMinPwm(c.left, MinPwm));
    var right := M.Stop(M.SetMinPwm(c.right, MinPwm));
    c.(left := left, right := right, lastCommandTime := now)
  }

  // ---------------------------------------------------------------------------
  // Lamp
  // ---------------------------------------------------------------------------

  /** `toggleFlash`. */
  function ToggleFlash(c: Car): (r: Car)
    ensures r.flashOn == !c.flashOn
    ensures r == c.(flashOn := r.flashOn)
    ensures Valid(c) ==> Valid(r)
  {
    c.(flashOn := !c.flashOn)
  }

  /** `turnFlashOff`. */
  function TurnFlashOff(c: Car): (r: Car)
    ensures !r.flashOn
    ensures r == c.(flashOn := false)
    ensures Valid(c) ==> Valid(r)
  {
    c.(flashOn := false)
  }

  lemma FlashToggleIsInvolution(c: Car)
    ensures ToggleFlash(ToggleFlash(c)) == c
    ensures TurnFlashOff(TurnFlashOff(c)) == TurnFlashOff(c)
    ensures TurnFlashOff(ToggleFlash(c)) == TurnFlashOff(c)
  {
  }

  // ---------------------------------------------------------------------------
  // Directional commands
  // ---------------------------------------------------------------------------

  /** `onCommand`: every directional command resets the watchdog. */
  function OnCommand(c: Car, now: u64): (r: Car)
    ensures r.lastCommandTime == now && !r.motorStopped
    ensures r == c.(lastCommandTime := now, motorStopped := false)
    ensures Valid(c) && !c.motorStopped ==> Valid(r)
    ensures Configured(c) ==> Configured(r)
  {
    c.(lastCommandTime := now, motorStopped := false)
  }

  /**
   The differential-drive table: what each command asks of the left and the
   right wheel.
   */
  function Intent(mv: Move): (wheels: (Wheel, Wheel))
  {
    match mv
    case Forward => (Wheel(M.Forward, MotorMax), Wheel(M.Forward, MotorMax))
    case Backward => (Wheel(M.Backward, MotorMax), Wheel(M.Backward, MotorMax))
    case Right => (Wheel(M.Forward, MotorMax), Wheel(M.Backward, MotorMax))
    case Left => (Wheel(M.Backward, MotorMax), Wheel(M.Forward, MotorMax))
    case ForwardLeft => (Wheel(M.Forward, DiagonalSpeed), Wheel(M.Forward, MotorMax))
    case ForwardRight => (Wheel(M.Forward, MotorMax), Wheel(M.Forward, DiagonalSpeed))
    case BackwardLeft => (Wheel(M.Backward, DiagonalSpeed), Wheel(M.Backward, MotorMax))
    case BackwardRight => (Wheel(M.Backward, MotorMax), Wheel(M.Backward, DiagonalSpeed))
  }

  /** The motor a wheel request leaves behind. */
  predicate Realises(before: M.Motor, wheel: Wheel, after: M.Motor) {
    && after.direction == wheel.direction
    && after.target == M.TargetFor(before, wheel.speed)
    && after == before.(direction := after.direction, target := after.target)
  }

  /**
   The eight move and turn methods (`moveForward`, `moveBackward`, `turnRight`,
   `turnLeft`, `moveForwardLeft`, `moveForwardRight`, `moveBackwardLeft`,
   `moveBackwardRight`): reset the watchdog, then give each motor its intent.
   */
  function Drive(c: Car, mv: Move, now: u64): (r: Car)
    ensures r.lastCommandTime == now && !r.motorStopped
    ensures Realises(c.left, Intent(mv).0, r.left) && Realises(c.right, Intent(mv).1, r.right)
    ensures r == c.(lastCommandTime := now, motorStopped := false, left := r.left, right := r.right)
    ensures Valid(c) ==> Valid(r)
    ensures Configured(c) ==> Configured(r)
  {
    var c := OnCommand(c, now);
    match mv
    case Forward => c.(left := M.MoveForward(c.left, MotorMax), right := M.MoveForward(c.right, MotorMax))
    case Backward => c.(left := M.MoveBackward(c.left, MotorMax), right := M.MoveBackward(c.right, MotorMax))
    case Right => c.(left := M.MoveForward(c.left, MotorMax), right := M.MoveBackward(c.right, MotorMax))
    case Left => c.(left := M.MoveBackward(c.left, MotorMax), right := M.MoveForward(c.right, MotorMax))
    case ForwardLeft => c.(left := M.MoveForward(c.left, DiagonalSpeed), right := M.MoveForward(c.right, MotorMax))
    case ForwardRight => c.(left := M.MoveForward(c.left, MotorMax), right := M.MoveForward(c.right, DiagonalSpeed))
    case BackwardLeft => c.(left := M.MoveBackward(c.left, DiagonalSpeed), right := M.MoveBackward(c.right, MotorMax))
    case BackwardRight => c.(left := M.MoveBackward(c.left, MotorMax), right := M.MoveBackward(c.right, DiagonalSpeed))
  }

  /** A turn drives the wheels in opposite directions at the same target. */
  lemma TurnsAreDifferential(c: Car, mv: Move, now: u64)
    requires mv == Left || mv == Right
    requires c.left.minPwm == c.right.minPwm
    ensures var r := Drive(c, mv, now);
      && r.left.direction != r.right.direction
      && r.left.direction != M.Stopped && r.right.direction != M.Stopped
      && r.left.target == r.right.target == MotorMax
      && (mv == Left ==> r.left.direction == M.Backward)
      && (mv == Right ==> r.left.direction == M.Forward)
  {
  }

  /** A diagonal drives both wheels the same way and the inner wheel no faster. */
  lemma DiagonalsSlowInnerWheel(c: Car, mv: Move, now: u64)
    requires mv == ForwardLeft || mv == ForwardRight || mv == BackwardLeft || mv == BackwardRight
    requires c.left.minPwm == c.right.minPwm
    ensures var r := Drive(c, mv, now);
      && r.left.direction == r.right.direction
      && (mv == ForwardLeft || mv == BackwardLeft ==> r.left.target <= r.right.target == MotorMax)
      && (mv == ForwardRight || mv == BackwardRight ==> r.right.target <= r.left.target == MotorMax)
      && (mv == ForwardLeft || mv == ForwardRight <==> r.left.direction == M.Forward)
  {
  }

  /** With the floor of 200 the inner wheel's 170 is raised to 200. */
  lemma InnerWheelRaisedToFloor(c: Car, mv: Move, now: u64)
    requires Configured(c)
    requires mv == ForwardLeft || mv == ForwardRight || mv == BackwardLeft || mv == BackwardRight
    ensures var r := Drive(c, mv, now);
      && (mv == ForwardLeft || mv == BackwardLeft ==> r.left.target == MinPwm)
      && (mv == ForwardRight || mv == BackwardRight ==> r.right.target == MinPwm)
  {
  }

  /** Left and right commands are mirror images of each other. */
  lemma IntentIsMirrorSymmetric(mv: Move)
    ensures Intent(Mirror(mv)) == (Intent(mv).1, Intent(mv).0)
  {
  }

  function Mirror(mv: Move): Move {
    match mv
    case Forward => Forward
    case Backward => Backward
    case Left => Right
    case Right => Left
    case ForwardLeft => ForwardRight
    case ForwardRight => ForwardLeft
    case BackwardLeft => BackwardRight
    case BackwardRight => BackwardLeft
  }

  /** `stop`: both motors halt at once; the watchdog clock is left alone. */
  function Stop(c: Car): (r: Car)
    ensures r.motorStopped && r.lastCommandTime == c.lastCommandTime
    ensures r.left == M.Stop(c.left) && r.right == M.Stop(c.right)
    ensures r.left.current == 0 && r.right.current == 0
    ensures r == c.(left := r.left, right := r.right, motorStopped := true)
    ensures Valid(c) ==> Valid(r)
    ensures Configured(c) ==> Configured(r)
  {
    c.(left := M.Stop(c.left), right := M.Stop(c.right), motorStopped := true)
  }

  // ---------------------------------------------------------------------------
  // Camera pan
  // ---------------------------------------------------------------------------

  /** Arduino's `map`, in `long` arithmetic with C's truncating division. */
  function ArduinoMap(x: int, inMin: int, inMax: int, outMin: int, outMax: int): int
    requires inMax != inMin
  {
    DivTrunc((x - inMin) * (outMax - outMin), inMax - inMin) + outMin
  }

  /** The servo angle a camera value in [-100, 100] stands for. */
  function CameraAngle(x: int): (angle: int)
    ensures 0 <= angle <= 180
    ensures x <= -100 ==> angle == 0
    ensures x == 0 ==> angle == 90
    ensures x >= 100 ==> angle == 180
    ensures angle == (Constrain(x, -100, 100) + 100) * 9 / 10
  {
    var v := Constrain(x, -100, 100);
    assert 0 <= (v + 100) * 180 <= 200 * 180;
    ArduinoMap(v, -100, 100, 0, 180)
  }

  /** A larger camera value never pans to a smaller angle. */
  lemma CameraAngleMonotonic(x: int, y: int)
    requires x <= y
    ensures CameraAngle(x) <= CameraAngle(y)
  {
    var a := Constrain(x, -100, 100) + 100;
    var b := Constrain(y, -100, 100) + 100;
    assert a * 180 <= b * 180;
    DivisionMonotonic(a * 180, b * 180);
  }

  lemma DivisionMonotonic(a: int, b: int)
    requires 0 <= a <= b
    ensures a / 200 <= b / 200
  {
  }

  /** `setCameraX`: only the servo's target moves. */
  function SetCameraX(c: Car, x: int): (r: Car)
    ensures r.targetAngle == CameraAngle(x)
    ensures r == c.(targetAngle := r.targetAngle)
    ensures Valid(c) ==> Valid(r)
    ensures Configured(c) ==> Configured(r)
  {
    var v := Constrain(x, -100, 100);
    c.(targetAngle := ArduinoMap(v, -100, 100, 0, 180))
  }

  /** A servo step, and the angle written to the servo, if any. */
  datatype ServoTick = ServoTick(car: Car, write: Option<int>)

  /** `updateServo`: every 40 ms, two degrees toward the target, written only when it moved. */
  function UpdateServo(c: Car, now: u64): (r: ServoTick)
    ensures SubU64(now, c.servoLastUpdate) < ServoStepDelayMs ==> r == ServoTick(c, None)
    ensures SubU64(now, c.servoLastUpdate) >= ServoStepDelayMs ==>
              && r.car.servoLastUpdate == now
              && M.RampedToward(c.currentAngle, c.targetAngle, ServoStep, r.car.currentAngle)
              && (r.write.Some? <==> r.car.currentAngle != c.currentAngle)
              && (r.write.Some? ==> r.write.value == r.car.currentAngle)
    ensures r.car == c.(currentAngle := r.car.currentAngle, servoLastUpdate := r.car.servoLastUpdate)
    ensures Valid(c) ==> Valid(r.car)
    ensures Configured(c) ==> Configured(r.car)
  {
    if SubU64(now, c.servoLastUpdate) < ServoStepDelayMs then ServoTick(c, None)
    else
      var c := c.(servoLastUpdate := now);
      if c.currentAngle == c.targetAngle then ServoTick(c, None)
      else
        var angle :=
          if c.currentAngle < c.targetAngle then
            (var up := c.currentAngle + ServoStep; if up > c.targetAngle then c.targetAngle else up)
          else
            (var down := c.currentAngle - ServoStep; if down < c.targetAngle then c.targetAngle else down);
        ServoTick(c.(currentAngle := angle), Some(angle))
  }

  // ---------------------------------------------------------------------------
  // Watchdog and tick
  // ---------------------------------------------------------------------------

  /** More than 500 ms since the last directional command. */
  predicate TimedOut(c: Car, now: u64) {
    ElapsedSince(now, c.lastCommandTime) > AutostopTimeoutMs
  }

  datatype Watchdog = Watchdog(car: Car, fired: bool)

  /** `tickAutoStop`: stops the car when a running car has heard nothing for 500 ms. */
  function TickAutoStop(c: Car, now: u64): (r: Watchdog)
    ensures r.fired <==> !c.motorStopped && TimedOut(c, now)
    ensures r.fired ==> r.car == Stop(c)
    ensures !r.fired ==> r.car == c
  {
    if !c.motorStopped && ElapsedSince(now, c.lastCommandTime) > AutostopTimeoutMs then
      Watchdog(Stop(c), true)
    else Watchdog(c, false)
  }

  /** Everything one `tick` produces. */
  datatype CarTick = CarTick(
    car: Car,
    servoWrite: Option<int>,
    leftWrite: Option<M.Pwm>,
    rightWrite: Option<M.Pwm>,
    autoStopped: bool)

  /**
   `tick`: the servo, then the watchdog, then the left and the right motor. A
   motor stopped by the watchdog is not ramped in the same tick.
   */
  function Tick(c: Car, now: u64): (r: CarTick)
    ensures r.autoStopped <==> !c.motorStopped && TimedOut(c, now)
    ensures r.autoStopped ==> r.car.motorStopped && r.car.left.current == 0 && r.car.right.current == 0
    ensures r.autoStopped ==> r.leftWrite == None || r.leftWrite == Some(M.Pwm(0, 0))
    ensures r.autoStopped ==> r.rightWrite == None || r.rightWrite == Some(M.Pwm(0, 0))
    ensures c.motorStopped ==> r.car.motorStopped && !r.autoStopped
    ensures r.car.lastCommandTime == c.lastCommandTime && r.car.flashOn == c.flashOn
    ensures r.car.targetAngle == c.targetAngle
    ensures r.servoWrite == UpdateServo(c, now).write
    ensures r.car.currentAngle == UpdateServo(c, now).car.currentAngle
    ensures r.car.servoLastUpdate == UpdateServo(c, now).car.servoLastUpdate
    ensures !r.autoStopped ==> r.car.left == M.Tick(c.left, now).motor && r.leftWrite == M.Tick(c.left, now).write
    ensures !r.autoStopped ==> r.car.right == M.Tick(c.right, now).motor && r.rightWrite == M.Tick(c.right, now).write
    ensures r.autoStopped ==> r.car.left == M.Tick(M.Stop(c.left), now).motor && r.leftWrite == M.Tick(M.Stop(c.left), now).write
    ensures r.autoStopped ==> r.car.right == M.Tick(M.Stop(c.right), now).motor && r.rightWrite == M.Tick(M.Stop(c.right), now).write
    ensures Valid(c) ==> Valid(r.car)
    ensures Configured(c) ==> Configured(r.car)
  {
    var servo := UpdateServo(c, now);
    var watchdog := TickAutoStop(servo.car, now);
    var c := watchdog.car;
    var left := M.Tick(c.left, now);
    var right := M.Tick(c.right, now);
    CarTick(c.(left := left.motor, right := right.motor), servo.write, left.write, right.write, watchdog.fired)
  }

  /** The car after one tick at each of the given times, with no command in between. */
  function TickAll(c: Car, times: seq<u64>): Car
    decreases |times|
  {
    if |times| == 0 then c else TickAll(Tick(c, times[0]).car, times[1..])
  }

  /** How often the watchdog stops the car over those ticks. */
  function AutoStops(c: Car, times: seq<u64>): nat
    decreases |times|
  {
    if |times| == 0 then 0
    else (if Tick(c, times[0]).autoStopped then 1 else 0) + AutoStops(Tick(c, times[0]).car, times[1..])
  }

  /** Once stopped, a car stays stopped and the watchdog never fires again. */
  lemma {:induction false} StoppedCarStaysStopped(c: Car, times: seq<u64>)
    requires c.motorStopped
    ensures TickAll(c, times).motorStopped
    ensures AutoStops(c, times) == 0
    decreases |times|
  {
    if |times| > 0 {
      StoppedCarStaysStopped(Tick(c, times[0]).car, times[1..]);
    }
  }

  /** Silence after a command stops the car exactly once, however many ticks follow. */
  lemma WatchdogStopsOnce(c: Car, t: u64, later: seq<u64>)
    requires !c.motorStopped && TimedOut(c, t)
    ensures AutoStops(c, [t] + later) == 1
    ensures TickAll(c, [t] + later).motorStopped
  {
    assert ([t] + later)[1..] == later;
    StoppedCarStaysStopped(Tick(c, t).car, later);
  }

  /** A command followed by less than 501 ms of ticks does not trip the watchdog. */
  lemma CommandKeepsWatchdogQuiet(c: Car, mv: Move, t: u64, now: u64)
    requires t <= now <= t + AutostopTimeoutMs
    ensures !Tick(Drive(c, mv, t), now).autoStopped
  {
  }

  /**
   `forward`, a tick less than 500 ms later, then `left`: the watchdog has not
   fired and the wheels turn in place, left backward and right forward.
   */
  lemma ForwardThenLeft(now0: u64, t: u64, d: nat)
    requires now0 <= t && d < AutostopTimeoutMs && t + d < U64_MODULUS
    ensures
      var c1 := Drive(Boot(now0), Forward, t);
      var tick := Tick(c1, t + d);
      var c2 := Drive(tick.car, Left, t + d);
      && !tick.autoStopped
      && c2.left.direction == M.Backward && c2.right.direction == M.Forward
      && c2.left.target == MotorMax && c2.right.target == MotorMax
  {
  }

  /** `forward` and 600 ms of silence: the next tick leaves both motors at rest. */
  lemma ForwardThenSilence(now0: u64, t: u64)
    requires now0 <= t && t + 600 < U64_MODULUS
    ensures
      var tick := Tick(Drive(Boot(now0), Forward, t), t + 600);
      && tick.autoStopped
      && tick.car.left.current == 0 && tick.car.right.current == 0
  {
  }

  // ---------------------------------------------------------------------------
  // The eight-bit wrap cannot happen with this car's settings
  // ---------------------------------------------------------------------------

  /** A speed of this car's motors: rest, or 200 plus a multiple of 5. */
  predicate GridSpeed(v: int) {
    v == 0 || (MinPwm <= v <= MotorMax && v % 5 == 0)
  }

  /**
   The states a motor of this car can reach: floor 200, step 5, a speed on the
   grid, at rest with target 0 when stopped and a target of 200 or 255 when
   driven.
   */
  predicate OnRampGrid(m: M.Motor) {
    && m.minPwm == MinPwm && m.accelStep == M.DefaultAccelStep
    && GridSpeed(m.current)
    && (m.direction == M.Stopped ==> m.current == 0 && m.target == 0)
    && (m.direction != M.Stopped ==> m.target == MinPwm || m.target == MotorMax)
  }

  predicate CarOnRampGrid(c: Car) {
    OnRampGrid(c.left) && OnRampGrid(c.right)
  }

  /** On the grid a ramp step never leaves eight bits. */
  lemma GridStepFits(m: M.Motor)
    requires OnRampGrid(m)
    ensures M.StartSpeed(m) < m.target ==> M.StartSpeed(m) + m.accelStep <= 255
    ensures M.StartSpeed(m) > m.target ==> M.StartSpeed(m) >= m.accelStep
    ensures GridSpeed(M.RampToward(M.StartSpeed(m), m.target, m.accelStep))
  {
    var s := M.StartSpeed(m);
    assert GridSpeed(s);
    assert s < m.target ==> s <= 250;
    var r := M.RampToward(s, m.target, m.accelStep);
    if s < m.target {
      assert r == s + 5 || r == m.target;
      assert (s + 5) % 5 == 0;
    } else if s > m.target {
      assert r == s - 5 || r == m.target;
      assert (s - 5) % 5 == 0;
    }
  }

  /** On the grid the source's eight-bit ramp and the saturating ramp coincide. */
  lemma GridTickAgrees(m: M.Motor, now: u64)
    requires OnRampGrid(m) && now < U32_MODULUS
    ensures M.TickAsWritten(m, now) == M.Tick(m, now)
  {
    GridStepFits(m);
    M.TickAsWrittenAgrees(m, now);
  }

  /** A tick keeps a motor on the grid. */
  lemma GridTickStaysOnGrid(m: M.Motor, now: u64)
    requires OnRampGrid(m)
    ensures OnRampGrid(M.Tick(m, now).motor)
  {
    GridStepFits(m);
  }

  /** Every controller operation keeps both motors on the grid. */
  lemma GridIsPreserved(c: Car, mv: Move, x: int, now: u64)
    requires CarOnRampGrid(c)
    ensures CarOnRampGrid(Boot(now))
    ensures CarOnRampGrid(Drive(c, mv, now))
    ensures CarOnRampGrid(Stop(c))
    ensures CarOnRampGrid(SetCameraX(c, x))
    ensures CarOnRampGrid(ToggleFlash(c)) && CarOnRampGrid(TurnFlashOff(c))
    ensures CarOnRampGrid(Tick(c, now).car)
  {
    var s := UpdateServo(c, now).car;
    var w := TickAutoStop(s, now).car;
    assert CarOnRampGrid(w);
    GridTickStaysOnGrid(w.left, now);
    GridTickStaysOnGrid(w.right, now);
  }
}
